=== FILE: README.md ===
# Character Crafter AI — a Dafny model of the application core

Character Crafter AI is a browser application for novelists. It works through a pipeline of steps:

idea → character profile → character card → image prompt → character image

Each text step asks a language model to expand the previous step's text. This can be Google Gemini or any OpenAI-compatible endpoint. The image step uses either Google Imagen or Black Forest Labs (BFL). BFL is asynchronous: it accepts a job, returns a task id, and the application polls that id until the image is ready.

The project models, as pure functions over immutable values:

- **The application state.** This covers the character texts with their edit and generation timestamps, the busy flags, the toasts (notifications), the image-generation lifecycle and the settings.
- **The handlers of `App.tsx`.** These are edit, text generation, image generation, a poll tick, project save and load, settings load at start-up, settings reset and the panel's save.
- **The decisions the four step panels make from their props.** The three text panels share one definition, `StepView.TextPanel`. The decisions are the "Out of sync" flag, the disabled generate button, the button label, the download guard and the preview area.
- **The local-storage settings service.** This covers save, load, clear, last-saved, export, import and validation.
- **The third-party service.** This covers:
  - the OpenAI-compatible text call and model listing;
  - the aspect-ratio mapping;
  - the shaping of the BFL request body for each model tier;
  - the three-attempt BFL submission with its back-off;
  - the BFL poll with its inline download of the finished image.
- **The constants.** These are the defaults, the model list and the initial state.

## How the model is organised

- **External calls are inputs.**
  - Each network exchange, file read or storage read is a value passed to the handler, usually a `Result`.
  - `replies` lists what each BFL submission attempt received. A missing reply means the 30-second abort fired.
  - `TickInput` carries the poll reply and the image download.
  - Time (`Date.now()`) is a `now` parameter.
- **Each handler is atomic.**
  - The synchronous start of a handler and its completion form one step. `HandleGenerateImage` is an example.
  - A poll tick handles its reply in the same step.
- **JavaScript semantics are written out in module `Js`.** This covers truthiness, `String.prototype.trim` whitespace, `startsWith`/`endsWith` and the code-unit order of `Array.prototype.sort`.
- **The BFL settings stay loosely typed.** They are loaded from JSON, so the validator checks their runtime types (`Js.Value`). Absent keys are `Undefined`.
- **Settings patches.** A stored or loaded settings object is a `SettingsPatch` with an `Option` per key. Spreading it over the defaults is `App.MergeSettings`.
- **`Lifecycle`** drives the handlers by a sequence of events. It proves that every reachable state keeps the image lifecycle consistent. It also proves that polling a task sends at most 100 requests and always ends.

Where the code and its design notes disagree, the model follows the code:

- there is no cancel button and no fencing of stale poll responses;
- a failed BFL submission is retried on every failure, 4xx included;
- the safety tolerance sent to BFL is fixed at 6, whatever the setting says.

Two behaviours of the code are modelled as written, and the contracts state them:

- **Save inlines any fetched body.** `handleSaveProject` inlines the fetched body whatever HTTP status the image fetch returned. Only a thrown fetch produces the warning. The model's `fetched` is simply `Ok` or `Err`.
- **A ready task without a sample.** When a poll returns `Ready` without a sample, the application still reports success and stores the image URL `""`. `App.TickReadyStoresImage` states this.

## Model

| member | source | states |
|---|---|---|
| Js.TrimStart | services/settingsService.ts:164 | the result is a suffix of the input; everything removed is whitespace; the result does not start with whitespace |
| Js.TrimEnd | services/settingsService.ts:164 | the result is a prefix of the input; everything removed is whitespace; the result does not end with whitespace |
| Js.TrimEmptyIffBlank | services/settingsService.ts:164-168 | `trim()` is empty exactly when the string is all whitespace, which is what the key checks test |
| Js.NatToString | App.tsx:338 | the attempt count prints as decimal digits without a leading zero, and those digits spell the count back |
| Js.LeTotal | services/thirdPartyService.ts:84 | the string order used by `sort()` is total |
| Js.LeTransitive | services/thirdPartyService.ts:84 | the string order used by `sort()` is transitive |
| Js.Insert | services/thirdPartyService.ts:84 | inserting into a sorted list keeps it sorted and adds exactly that one element |
| Js.PrependLowerBound | services/thirdPartyService.ts:84 | an element no greater than any member of a sorted list can go in front of it |
| Js.SortStrings | services/thirdPartyService.ts:84 | `sort()` returns a sorted permutation of its input |
| Types.AsPatch | types.ts:55-73 | a full settings object has every one of the thirteen keys |
| Types.FromPatch | types.ts:55-73 | a patch with every key is exactly some settings object, which round-trips back to it |
| SettingsService.SaveSettings | services/settingsService.ts:15-29 | after saving, settings are stored under the key; every other storage key is untouched |
| SettingsService.LoadSettings | services/settingsService.ts:34-61 | settings are returned exactly when a parsed entry with version "1.0.0" holds a settings object, and they are that entry's settings |
| SettingsService.ClearSettings | services/settingsService.ts:66-74 | after clearing, nothing is stored under the key; every other key is untouched |
| SettingsService.GetSettingsLastSaved | services/settingsService.ts:86-97 | a save time is reported only when settings are stored |
| SettingsService.SaveThenLoad | services/settingsService.ts:15-61 | loading after a save returns the saved settings; the last-saved time is the save time |
| SettingsService.ClearThenLoad | services/settingsService.ts:66-97 | after clearing, nothing is stored, nothing loads and no save time is reported |
| SettingsService.ExportSettings | services/settingsService.ts:102-111 | the export carries the settings and version "1.0.0" |
| SettingsService.FirstMissing | services/settingsService.ts:133-137 | the scan finds nothing exactly when every listed key is present; otherwise it names a listed key that is missing |
| SettingsService.RequiredFieldsAreAllKeys | services/settingsService.ts:126-131 | the thirteen required fields are exactly the settings keys |
| SettingsService.ImportSettings | services/settingsService.ts:116-145 | import succeeds iff the document holds a settings object with all thirteen keys; it then returns those settings; every failure gives the one generic message |
| SettingsService.ExportImportRoundTrip | services/settingsService.ts:102-145 | importing an export gives back the exported settings |
| SettingsService.FailsIffViolates | services/settingsService.ts:150-202 | each check as coded fails exactly when its rule, stated independently, is broken |
| SettingsService.SignatureIdentifiesIssue | services/settingsService.ts:155-201 | the length and two characters of each error message identify the rule it reports |
| SettingsService.MessageInjective | services/settingsService.ts:155-201 | no two rules share an error message |
| SettingsService.CheckOrderComplete | services/settingsService.ts:150-202 | the validator checks every rule |
| SettingsService.Collect | services/settingsService.ts:151-202 | the collected errors are exactly the messages of the failing checks |
| SettingsService.HeadMessageIsNew | services/settingsService.ts:151-202 | a check's message is not pushed again by the other, different checks |
| SettingsService.CollectDistinct | services/settingsService.ts:151-202 | distinct checks never report the same message twice |
| SettingsService.CollectedIffViolated | services/settingsService.ts:150-202 | a rule's message is collected exactly when that rule is broken |
| SettingsService.CollectedAreViolations | services/settingsService.ts:150-202 | every collected message reports a broken rule |
| SettingsService.ValidateSettings | services/settingsService.ts:150-208 | the settings are valid iff there are no errors; a rule's message is among the errors iff the rule is broken |
| SettingsService.ValidationReportsOnlyViolations | services/settingsService.ts:150-208 | every reported error names a broken rule |
| SettingsService.ValidationReportsEachOnce | services/settingsService.ts:150-208 | no error is reported twice |
| SettingsService.ValidIffNoViolation | services/settingsService.ts:204-207 | the settings are valid exactly when no rule is broken |
| SettingsService.ConformingBflIsWellTyped | services/settingsService.ts:185-202 | settings breaking no rule have BFL settings of the declared shape: a known model, a boolean upsampling flag, a tolerance between 1 and 6 |
| ThirdPartyService.GenerateTextOpenAI | services/thirdPartyService.ts:28-62 | a missing URL or key fails with the configuration error before any request; otherwise the outcome is the exchange's |
| ThirdPartyService.FetchModelsOpenAI | services/thirdPartyService.ts:64-88 | a missing URL or key is refused; success iff a parseable listing came back; the ids come back sorted and complete; a body without a list gives `[]`; a 401 gets its own message |
| ThirdPartyService.ColonAt | services/thirdPartyService.ts:95-104 | finds the first colon of a ratio name |
| ThirdPartyService.RatioHeight | services/thirdPartyService.ts:95-104 | the height part of a well-formed ratio name is positive |
| ThirdPartyService.ParseRatio | services/thirdPartyService.ts:95-104 | a name with digits `w`, a first colon and digits `h > 0` reads as `w` by `h` |
| ThirdPartyService.RatioNamesParse | types.ts:41 | each of the five ratio names is `w:h` with the expected numbers |
| ThirdPartyService.MapAspectRatioToBfl | services/thirdPartyService.ts:95-104 | dimensions are positive; unknown names fall back to 1024×1024 |
| ThirdPartyService.MappedDimensionsHaveNamedProportion | services/thirdPartyService.ts:95-104 | the pixel size chosen for each ratio has exactly the named proportion |
| ThirdPartyService.RatioValues | services/thirdPartyService.ts:109-113 | the ratios compared against are 1, 16/9, 9/16, 4/3 and 3/4 |
| ThirdPartyService.FirstNearOfFive | services/thirdPartyService.ts:108-114 | the first-match scan over five names is the chain of ifs with a "1:1" fallback |
| ThirdPartyService.GetClosestAspectRatio | services/thirdPartyService.ts:107-115 | the answer is always one of the five names; with height 0 it is "1:1" |
| ThirdPartyService.ClosestToQuotient | services/thirdPartyService.ts:108-114 | the chain of comparisons always answers with one of the five names |
| ThirdPartyService.ClosestIsFirstNear | services/thirdPartyService.ts:108-114 | the chain answers with the first name, in union order, whose own `W:H` quotient is within 0.1 of width/height, else "1:1" |
| ThirdPartyService.ClosestRecoversMappedRatio | services/thirdPartyService.ts:95-115 | the ultra tier's ratio, computed back from the mapped dimensions, is the ratio the user chose |
| ThirdPartyService.ShapeRequestBody | services/thirdPartyService.ts:139-170 | prompt, seed, tolerance 6 and jpeg are always sent. Ultra sends only an aspect ratio: no steps, guidance, size or upsampling. Pro 1.1 drops steps and guidance. The other models send everything. |
| ThirdPartyService.UltraBodyKeepsRequestedRatio | services/thirdPartyService.ts:156-164 | for an ultra model with a known ratio, the body's aspect ratio is that ratio |
| ThirdPartyService.ModelTiers | services/thirdPartyService.ts:156-170 | each of the four models falls in the expected tier by suffix |
| ThirdPartyService.AttemptOutcome | services/thirdPartyService.ts:186-216 | an attempt succeeds exactly when an OK response carries a truthy id, and that id is returned; a timeout, a network failure, an HTTP error, unreadable JSON and a missing id each give their own error |
| ThirdPartyService.RetryFrom | services/thirdPartyService.ts:182-232 | attempts stop at the first success or after the third; every earlier attempt failed; a failure only after the third; the waits are 2000 ms × the attempt number |
| ThirdPartyService.InitiateImageGenerationBfl | services/thirdPartyService.ts:117-238 | a missing key fails before any attempt; a model that is not a string fails before any attempt, carrying that value; at most three attempts, all with the same shaped body; the id of the first successful attempt is returned; otherwise the last attempt's error; waits of 2 s then 4 s |
| ThirdPartyService.SubmitSucceedsIffSomeAttemptDoes | services/thirdPartyService.ts:182-232 | the submission succeeds iff one of the three attempts would succeed |
| ThirdPartyService.SubmitWaitsAtMostSixSeconds | services/thirdPartyService.ts:222-226 | the back-off waits add up to at most 6000 ms |
| ThirdPartyService.DownloadOutcome | services/thirdPartyService.ts:279-315 | a download succeeds exactly when the response is OK and reading it succeeds, and gives the data URL read; a network failure keeps its reason, an HTTP error gives "Image download failed: " with the status, and a read failure keeps its reason |
| ThirdPartyService.PollImageBfl | services/thirdPartyService.ts:240-327 | a missing task id fails; a result needs an OK parsed response and keeps its status; a ready task with a sample has that sample replaced by the downloaded data URL; any other readable reply passes through with its status and sample; a network failure, an HTTP error, unreadable JSON and a failed download each give their own error |
| ThirdPartyService.PollDownloadsOnlyWhenReady | services/thirdPartyService.ts:274 | the image download matters only for a ready task with a sample |
| ThirdPartyService.PollReadyInlinesData | services/thirdPartyService.ts:274-315 | for a ready task with a sample, the poll succeeds iff the download does, and the result is Ready with the data URL |
| StepView.TextPanel | components/ProfileStep.tsx:16-30 | Out of sync iff the input changed after a generation, and never before the first one. Disabled iff busy or the input is empty. The button offers "Regenerate" iff the panel holds text, else "Generate", and is exactly that verb followed by the panel's noun. The card and image-prompt panels (`components/CardStep.tsx`, `components/PromptStep.tsx`) make the same decisions, fed by the profile and the card. |
| ImageStep.View | components/ImageStep.tsx:15-55 | out of sync iff the prompt changed since generation and an image exists; download iff an image exists; disabled iff busy or the prompt is empty; the spinner takes priority, then the image, then the placeholder |
| Constants.InitialCharacterData | constants.ts:114-123 | every text is stamped as modified at load time and never generated; only the idea has text; there is no image |
| Constants.InitialStatesAreQuiet | constants.ts:125-142 | at start nothing is generating, there are no toasts, the settings panel is closed and the lifecycle is idle with no task |
| Constants.BflModelsMatchUnion | constants.ts:87-92 | the model list is the validator's model list |
| Constants.DefaultBflSettingsAreValid | constants.ts:80-84 | the BFL defaults pass each BFL rule |
| Constants.DefaultSettingsConform | constants.ts:94-112 | the default settings break no rule |
| Constants.DefaultSettingsAreValid | constants.ts:94-112 | the default settings validate with no errors |
| Constants.InitialStepsAreClean | constants.ts:114-123 | at start no panel is out of sync and no download is offered |
| Constants.InitialGenerateButtons | constants.ts:114-123 | at start only the profile can be generated |
| App.AddNotification | App.tsx:93-98 | appends exactly one toast and changes nothing else |
| App.ImageStatusText | App.tsx:338 | while polling, "Polling (n)..." with n the attempt count in digits; otherwise "Generating image..." |
| App.ResetAsyncState | App.tsx:147-154 | the lifecycle returns to its initial value and the image flag clears; nothing else changes |
| App.ResetReleasesImagePanel | App.tsx:147-154 | after a reset the image panel is not busy; resetting twice is resetting once |
| App.StoreImage | App.tsx:182-187 | a finished image replaces the link and drops the inline copy; it stamps the prompt as generated now and leaves the texts alone |
| App.Tick | App.tsx:156-212 | no-op unless polling; at 100 attempts, a timeout toast and a reset; otherwise either only the counter advances or polling ends with one toast; settings never change |
| App.TickReadyStoresImage | App.tsx:180-189 | a ready task stores its sample, or "" when it has none, raises one success toast and ends polling |
| App.TickShowsDownloadedData | services/thirdPartyService.ts:274-311 | a finished image is shown as the downloaded data URL, not the remote link |
| App.TickFailedEndsPolling | App.tsx:190-193 | a failed task raises one error toast and ends polling; the character is untouched |
| App.TickTimesOut | App.tsx:166-171 | with the budget spent, one timeout toast and a reset; the character is untouched |
| App.TickPendingOnlyCounts | App.tsx:173-197 | any other status only advances the counter |
| App.TickPendingReplyOnlyCounts | App.tsx:173-197 | a readable reply whose status is neither "Ready" nor "Failed", such as "Pending", only advances the counter |
| StepView.LabelIsVerbAndNoun | components/ProfileStep.tsx:30 | a label that starts with the verb, ends with the noun and is as long as both is exactly the verb followed by the noun |
| App.TickErrorEndsPolling | App.tsx:198-202 | a poll error raises "Polling error: " with the message and ends polling |
| App.SubmitBfl | App.tsx:235-241 | a null BFL settings object fails as the property read does; a missing key fails with the key message; a null, undefined or numeric model fails with the message that `model.endsWith` throws for it; otherwise success iff the BFL submission succeeds, with the id the provider returned, and a failure carries the submission's message |
| App.StartImageGeneration | App.tsx:215-216 | the image flag is set and the status becomes generating; nothing else changes |
| App.HandleGenerateImage | App.tsx:214-251 | exactly one toast. Google: the image is stored on success, and the lifecycle ends idle either way. BFL: a task id starts polling from zero; a failure gives "Error starting image generation: " and a reset. The texts, the earlier toasts and the settings panel are unchanged. |
| App.TextStepsFormAPipeline | App.tsx:403-425 | each text step reads the output of the step before it, never its own |
| App.TextView | App.tsx:403-425 | the props each text panel receives give its disabled and out-of-sync decisions |
| App.RequestFor | App.tsx:408-424 | the profile button sends the idea with the profile prompt, the card button the profile with the card prompt, and the image-prompt button the card with the prompt prompt |
| App.EnabledStepSendsInput | App.tsx:408-424 | an enabled button never sends an empty input |
| App.Capitalize | App.tsx:139 | capitalising keeps the length and every character after the first |
| App.CapitalizedNames | App.tsx:139 | the success toasts name "Profile", "Card" and "ImagePrompt" |
| App.TextOutcome | App.tsx:130-134 | Google answers directly; the third-party path refuses a missing URL or key and otherwise answers with the exchange |
| App.HandleGenerate | App.tsx:121-145 | On success the output becomes the text, stamped modified and generated now, with a success toast. On failure the character is unchanged and an error toast is raised. The step's flag ends cleared. The earlier toasts, the other flags, the settings panel, the settings and the image lifecycle are unchanged. |
| App.GeneratedStepIsInSync | App.tsx:135-138 | a freshly generated step is not out of sync |
| App.HandleUpdateContent | App.tsx:114-119 | the edited field takes the value and "modified now"; its generation time stays; nothing else changes |
| App.EditMarksDownstreamOutOfSync | App.tsx:114-119 | editing a step's input after its generation marks it out of sync |
| App.EditMarksImageOutOfSync | App.tsx:114-119 | editing the prompt after an image was generated marks the image out of sync |
| App.InlineImage | App.tsx:254-270 | A data-URL image is copied inline. A remote link is inlined from the fetched data, or left alone when the fetch threw. The texts and the link are unchanged. |
| App.HandleSaveProject | App.tsx:253-281 | the file holds the inlined character and the settings; the live state gains "Project saved!", preceded by the "Could not save image data" warning exactly when the fetch of a remote image threw; earlier toasts, the flags, the settings panel and the lifecycle are unchanged |
| App.MergeBfl | App.tsx:55-58 | each BFL field is the loaded one when present and the default when absent; absent or null settings give the defaults; the result is complete |
| App.MergeSettings | App.tsx:51-59 | each string key is the loaded value when present and the default when absent; the BFL settings are merged field by field |
| App.MergeOfCompleteIsIdentity | App.tsx:51-59 | merging complete settings over the defaults gives them back |
| App.MergeOfEmptyIsDefault | App.tsx:51-59 | merging an empty object gives the defaults |
| App.ValidSettingsAreComplete | App.tsx:51-59 | settings the validator accepts survive the merge unchanged |
| App.RestoreImage | App.tsx:298-301 | a loaded inline copy becomes the image shown |
| App.HandleLoadProject | App.tsx:283-324 | no file chosen: nothing happens. A file without character data or settings gives an error toast and changes nothing. Otherwise the character is restored and the settings merged, with a success toast. Either way exactly one toast is appended, and earlier toasts, the flags, the settings panel and the lifecycle are unchanged. |
| App.ProjectRoundTrip | App.tsx:253-324 | saving and loading restores the settings and every text; a data-URL image comes back identical; an image shown before is still shown, as the link or as the inlined data |
| App.LoadedImageIsConsistent | App.tsx:298-301 | after loading, the inline copy and the shown image agree |
| App.LoadStoredSettings | App.tsx:45-73 | stored settings are merged over the defaults silently; a stored but unusable entry appends the version-mismatch warning and changes nothing else; nothing stored changes nothing |
| App.SettingsSurviveRestart | App.tsx:45-91 | settings saved to storage are the settings after the next start |
| App.HandleResetSettings | App.tsx:326-335 | the settings key is removed and every other storage key kept; the defaults apply and exactly one success toast is appended; the character, the flags, the settings panel and the lifecycle are unchanged |
| App.ResetThenRestartKeepsDefaults | App.tsx:326-335 | right after a reset, before the auto-save writes again, the next start changes nothing |
| App.AutoSaveSettings | App.tsx:78-91 | after an auto-save the store reads back the current settings, stamped with the save time |
| App.ResetAutoSaveThenRestartKeepsDefaults | App.tsx:78-91 | a reset followed by the auto-save it triggers stores the defaults, and the next start reads the defaults back |
| App.ApplyPanelSettings | components/SettingsPanel.tsx:159-169 | settings the validator accepts replace the application's and the panel closes (`onClose` clears `isSettingsOpen`, App.tsx:377); rejected settings change nothing |
| App.PanelInstallsOnlyValidSettings | components/SettingsPanel.tsx:159-169 | from an open panel, the settings afterwards are the old ones or validated ones, and the panel closes exactly when the candidate validates |
| Lifecycle.InitialStateIsInvariant | constants.ts:114-142 | the initial state is at rest and consistent |
| Lifecycle.StepPreservesInvariant | App.tsx:114-324 | every handler, the settings panel, reset and the mount-time settings read included, keeps the image lifecycle either at rest, or polling a task with a non-empty id, at most 100 polls and the flag set; the inline image stays consistent |
| Lifecycle.RunPreservesInvariant | App.tsx:114-324 | every reachable state keeps that invariant |
| Lifecycle.NoSecondSubmissionWhilePolling | App.tsx:337 | while a task is polled, the image button ignores clicks |
| Lifecycle.TickSpendsBudget | App.tsx:166-173 | each poll spends one unit of the 100-poll budget; a tick never adds to it |
| Lifecycle.PollsAreBounded | App.tsx:166-173 | a run of ticks sends no more polls than the budget left |
| Lifecycle.FreshTaskPollsAtMostMax | App.tsx:30 | a new task is polled at most 100 times |
| Lifecycle.TicksEndPolling | App.tsx:166-171 | after more ticks than the budget, the lifecycle is at rest and the image panel idle |
| Lifecycle.IdleStaysIdle | App.tsx:158-160 | ticks change nothing while nothing is polled |

## Left out

- `server.js` (the local relay that forwards BFL requests) and `test-bfl-connection.js` are not part of this model. From the application's side, a relay reply is simply one of the modelled replies.
- `geminiService.ts` is not part of this model. Its result enters as the `exchange` or `google` input.
- The settings panel's form handling, its connection tests and its export/import buttons are not modelled. This includes picking the first listed model when the current one is missing. Only its save, through the validator, is modelled.
- `NotificationCenter`, `Step` and `IdeaStep` are left out: they only render their props.
- The 5-second auto-dismiss of toasts and `dismissNotification` are left out: they are timers and UI.
- The toast id is the time (`Date.now()`) as a number, not its string form.
- The auto-save effect is `App.AutoSaveSettings`, a save of the current settings. The store is not part of `AppState`, so the handlers do not thread it; the effect's skip of the first render is not modelled.
- The exit handler is left out: it only calls `saveSettings` and then shows a browser alert.
- App.ResetThenRestartKeepsDefaults: it describes the store right after the reset, before the auto-save effect writes the defaults back. The store after the effect is the subject of `App.ResetAutoSaveThenRestartKeepsDefaults`.
- App.HandleSaveProject: a `FileReader` that fails never settles its promise (there is no `onerror`), so the save then hangs: no file and no toast. The model's `fetched` input is either the data URL or a failure caught as a warning; the hanging case is not modelled.
- Local-storage exceptions are not modelled: the store is a map. This covers the rethrow in `saveSettings`/`clearSettings`, the catch branch at `App.tsx:66-69`, and the "Failed to reset settings" branch.
- Concurrency is left out. Handlers and ticks are atomic, so overlapping intervals and in-flight polls racing a state update are not modelled.
- Floating point and `NaN` are not modelled. Ratios are exact reals, tolerances are reals, and timestamps and attempts are integers.
- The text of the three default system prompts is left out. Nothing in the application inspects it, so each is a named placeholder.
- Header names, URLs, logging and JSON formatting are left out: they are not decisions of the core.
- Extra keys in loaded JSON are left out.
- Loaded character data is assumed to have all its fields; a partial `characterData` object is not modelled.
- The text generation's request body and the parsing of `choices[0]` are left out. A successful exchange is its text.
- ThirdPartyService.GenerateTextOpenAI: it states only the guard; the HTTP error text and response parsing are folded into `exchange`.
- Js.SortStrings: strings are ordered by character code, which matches UTF-16 code-unit order only for characters in the basic plane.
- String settings are modelled as strings. A loaded or imported file whose string keys hold `null` or non-strings is not modelled; in the source, the validator's `.trim()` then throws.

=== FILE: app.dfy ===
/**
 * The application shell: the state it keeps, and each handler as a
 * function from the state before to the state after. Calls into services
 * and the browser are inputs: a handler receives what the call produced.
 *
 * A handler that awaits is modelled as one atomic step (its start and its
 * completion together); the polling interval is a sequence of ticks, each
 * processing one poll reply.
 */
module App {
  import opened Wrappers
  import opened Js
  import opened Types
  import opened Constants
  import SettingsService
  import ThirdPartyService
  import StepView
  import ImageStep

  /** Milliseconds between polls. */
  const PollingInterval: nat := 2500
  /** Polls made before giving up. */
  const MaxPollingAttempts: nat := 100

  datatype AppState = AppState(character: CharacterData, ui: UiState, async: AsyncState, settings: Settings)

  /** The state on first render, before stored settings are read. */
  function InitialAppState(loadTime: int): AppState {
    AppState(InitialCharacterData(loadTime), InitialUiState, InitialAsyncState, DefaultSettings)
  }

  /** `addNotification`: appends a toast stamped with the current time. */
  function AddNotification(st: AppState, now: int, kind: NoteKind, message: string): (r: AppState)
    ensures r.ui.notifications == st.ui.notifications + [Notification(now, kind, message)]
    ensures r.character == st.character && r.async == st.async && r.settings == st.settings
    ensures r.ui.isGenerating == st.ui.isGenerating && r.ui.isSettingsOpen == st.ui.isSettingsOpen
  {
    st.(ui := st.ui.(notifications := st.ui.notifications + [Notification(now, kind, message)]))
  }

  /** The last toast raised, if any. */
  function LastNotification(st: AppState): Option<Notification> {
    if |st.ui.notifications| == 0 then None else Some(st.ui.notifications[|st.ui.notifications| - 1])
  }

  /** The image panel shows work in progress: a request is out or a task is being polled. */
  predicate IsGeneratingImage(st: AppState) {
    st.ui.isGenerating.image || st.async.status == Polling
  }

  /** The text under the image spinner. */
  function ImageStatusText(a: AsyncState): (t: string)
    ensures a.status == Polling ==> StartsWith(t, "Polling (") && EndsWith(t, ")...")
    ensures a.status == Polling ==> |t| >= 13 && t[9..|t| - 4] == NatToString(a.pollingAttempts)
    ensures a.status != Polling ==> t == "Generating image..."
  {
    if a.status == Polling then
      var t := "Polling (" + NatToString(a.pollingAttempts) + ")...";
      assert t[..9] == "Polling (" && t[|t| - 4..] == ")...";
      assert t[9..|t| - 4] == NatToString(a.pollingAttempts);
      t
    else "Generating image..."
  }

  /** The image panel as rendered from the state. */
  function ImageView(st: AppState): ImageStep.ImageStepView {
    ImageStep.View(st.character.imagePrompt, st.character.generatedImageUrl, IsGeneratingImage(st), ImageStatusText(st.async))
  }

  /**
   * `resetAsyncState`: stops the interval (implicit here: ticks only act
   * while polling), returns the lifecycle to its initial value and clears
   * the image flag.
   */
  function ResetAsyncState(st: AppState): (r: AppState)
    ensures r.async == InitialAsyncState
    ensures !r.ui.isGenerating.image
    ensures forall f :: f != ImageFlag ==> r.ui.isGenerating.Get(f) == st.ui.isGenerating.Get(f)
    ensures r.ui.notifications == st.ui.notifications && r.ui.isSettingsOpen == st.ui.isSettingsOpen
    ensures r.character == st.character && r.settings == st.settings
  {
    st.(async := InitialAsyncState, ui := st.ui.(isGenerating := st.ui.isGenerating.With(ImageFlag, false)))
  }

  /** After a reset the image panel is idle again and resetting twice changes nothing more. */
  lemma ResetReleasesImagePanel(st: AppState)
    ensures !IsGeneratingImage(ResetAsyncState(st))
    ensures ImageStatusText(ResetAsyncState(st).async) == "Generating image..."
    ensures ResetAsyncState(ResetAsyncState(st)) == ResetAsyncState(st)
  {
  }

  /* ---------------------------------------------------------------------- */
  /* Polling                                                                 */
  /* ---------------------------------------------------------------------- */

  const TimedOutMessage := "Image generation timed out."
  const ImageSuccessMessage := "Image generated successfully."
  const ImageFailedMessage := "Image generation failed."
  const PollingErrorPrefix := "Polling error: "

  /** The polling effect has an interval running: status is polling and a task id is set. */
  predicate PollingActive(a: AsyncState) {
    a.status == Polling && TruthyText(a.pollingUrl)
  }

  /** What one interval tick sees: the clock, the poll reply and the sample download. */
  datatype TickInput = TickInput(now: int, reply: ThirdPartyService.PollReply, download: ThirdPartyService.Download)

  /** A tick sends a poll request: the interval runs and the attempt budget is not spent. */
  predicate TickPolls(a: AsyncState) {
    PollingActive(a) && a.pollingAttempts < MaxPollingAttempts
  }

  /** Records an image and stamps the prompt as generated now; any inline copy is dropped. */
  function StoreImage(c: CharacterData, url: string, now: int): (r: CharacterData)
    ensures r.generatedImageUrl == Some(url) && r.generatedImageData.None?
    ensures r.imagePrompt == c.imagePrompt.(lastGenerated := now)
    ensures r.idea == c.idea && r.profile == c.profile && r.card == c.card
  {
    c.(generatedImageUrl := Some(url), generatedImageData := None, imagePrompt := c.imagePrompt.(lastGenerated := now))
  }

  /**
   * One run of `poll`: time out once 100 polls have been made, otherwise
   * count the attempt, poll, and finish on a ready task, a failed task or
   * an error. Any other status leaves only the counter advanced.
   */
  function Tick(st: AppState, t: TickInput): (r: AppState)
    ensures !PollingActive(st.async) ==> r == st
    ensures r.settings == st.settings
    ensures PollingActive(st.async) && !TickPolls(st.async) ==>
      && r.async == InitialAsyncState && !r.ui.isGenerating.image && r.character == st.character
      && LastNotification(r) == Some(Notification(t.now, ErrorNote, TimedOutMessage))
    ensures TickPolls(st.async) ==>
      || (r.async == st.async.(pollingAttempts := st.async.pollingAttempts + 1) && r.ui == st.ui && r.character == st.character)
      || (r.async == InitialAsyncState && !r.ui.isGenerating.image && |r.ui.notifications| == |st.ui.notifications| + 1)
  {
    if !PollingActive(st.async) then st
    else if st.async.pollingAttempts >= MaxPollingAttempts then
      ResetAsyncState(AddNotification(st, t.now, ErrorNote, TimedOutMessage))
    else
      var counted := st.(async := st.async.(pollingAttempts := st.async.pollingAttempts + 1));
      match ThirdPartyService.PollImageBfl(st.async.pollingUrl.value, t.reply, t.download)
      case Ok(result) =>
        if result.status == "Ready" then
          var url := if TruthyText(result.sample) then result.sample.value else "";
          var stored := counted.(character := StoreImage(counted.character, url, t.now));
          ResetAsyncState(AddNotification(stored, t.now, SuccessNote, ImageSuccessMessage))
        else if result.status == "Failed" then
          ResetAsyncState(AddNotification(counted, t.now, ErrorNote, ImageFailedMessage))
        else counted
      case Err(e) =>
        ResetAsyncState(AddNotification(counted, t.now, ErrorNote, PollingErrorPrefix + ThirdPartyService.PollMessage(e)))
  }

  /**
   * A ready task ends polling: the sample (or "" when there is none) becomes
   * the image, only the prompt's generation time changes among the texts,
   * and exactly one success toast is raised.
   */
  lemma TickReadyStoresImage(st: AppState, t: TickInput, sample: Option<string>)
    requires TickPolls(st.async)
    requires ThirdPartyService.PollImageBfl(st.async.pollingUrl.value, t.reply, t.download) == Ok(ThirdPartyService.PollResult("Ready", sample))
    ensures var r := Tick(st, t);
      && r.character == StoreImage(st.character, if TruthyText(sample) then sample.value else "", t.now)
      && r.async == InitialAsyncState && !IsGeneratingImage(r)
      && r.ui.notifications == st.ui.notifications + [Notification(t.now, SuccessNote, ImageSuccessMessage)]
  {
  }

  /** A ready task whose sample was downloaded shows the inline data, never the remote link. */
  lemma TickShowsDownloadedData(st: AppState, t: TickInput)
    requires TickPolls(st.async) && t.reply.PollResponse? && t.reply.json.Ok?
    requires ThirdPartyService.ReadyWithSample(t.reply.json.value)
    requires ThirdPartyService.PollImageBfl(st.async.pollingUrl.value, t.reply, t.download).Ok?
    ensures var r := Tick(st, t);
      r.character.generatedImageUrl == Some(ThirdPartyService.DownloadOutcome(t.download).value)
  {
  }

  /** A failed task ends polling with exactly one error toast, leaving the character alone. */
  lemma TickFailedEndsPolling(st: AppState, t: TickInput, sample: Option<string>)
    requires TickPolls(st.async)
    requires ThirdPartyService.PollImageBfl(st.async.pollingUrl.value, t.reply, t.download) == Ok(ThirdPartyService.PollResult("Failed", sample))
    ensures var r := Tick(st, t);
      && r.character == st.character && r.async == InitialAsyncState && !IsGeneratingImage(r)
      && r.ui.notifications == st.ui.notifications + [Notification(t.now, ErrorNote, ImageFailedMessage)]
  {
  }

  /** With the budget spent, a tick sends nothing, raises exactly one timeout toast and resets. */
  lemma TickTimesOut(st: AppState, t: TickInput)
    requires PollingActive(st.async) && st.async.pollingAttempts >= MaxPollingAttempts
    ensures var r := Tick(st, t);
      && r.character == st.character && r.async == InitialAsyncState && !IsGeneratingImage(r)
      && r.ui.notifications == st.ui.notifications + [Notification(t.now, ErrorNote, TimedOutMessage)]
  {
  }

  /** A task still in progress only advances the counter: nothing else changes, and polling goes on. */
  lemma TickPendingOnlyCounts(st: AppState, t: TickInput, status: string, sample: Option<string>)
    requires TickPolls(st.async)
    requires ThirdPartyService.PollImageBfl(st.async.pollingUrl.value, t.reply, t.download) == Ok(ThirdPartyService.PollResult(status, sample))
    requires status != "Ready" && status != "Failed"
    ensures var r := Tick(st, t);
      r == st.(async := st.async.(pollingAttempts := st.async.pollingAttempts + 1)) && PollingActive(r.async)
  {
  }

  /**
   * A readable reply whose status is neither "Ready" nor "Failed" (say
   * "Pending") passes through the poll and only advances the counter.
   */
  lemma TickPendingReplyOnlyCounts(st: AppState, t: TickInput)
    requires TickPolls(st.async)
    requires t.reply.PollResponse? && ThirdPartyService.HttpOk(t.reply.status) && t.reply.json.Ok?
    requires t.reply.json.value.status != "Ready" && t.reply.json.value.status != "Failed"
    ensures Tick(st, t) == st.(async := st.async.(pollingAttempts := st.async.pollingAttempts + 1))
  {
    var j := t.reply.json.value;
    assert !ThirdPartyService.ReadyWithSample(j);
    TickPendingOnlyCounts(st, t, j.status, j.sample);
  }

  /** Any failure of the poll itself ends polling with one error toast and leaves the character alone. */
  lemma TickErrorEndsPolling(st: AppState, t: TickInput, e: ThirdPartyService.PollError)
    requires TickPolls(st.async)
    requires ThirdPartyService.PollImageBfl(st.async.pollingUrl.value, t.reply, t.download) == Err(e)
    ensures var r := Tick(st, t);
      && r.async == InitialAsyncState && r.character == st.character
      && LastNotification(r) == Some(Notification(t.now, ErrorNote, PollingErrorPrefix + ThirdPartyService.PollMessage(e)))
  {
  }

  /* ---------------------------------------------------------------------- */
  /* Image generation                                                        */
  /* ---------------------------------------------------------------------- */

  const StartedMessage := "Image generation started, now polling for result."
  const StartErrorPrefix := "Error starting image generation: "
  const GoogleErrorPrefix := "Error generating image: "
  /** Reading `.model` of a null `bflSettings`. */
  const NullBflMessage := "Cannot read properties of null (reading 'model')"

  /** The BFL submission made with the current settings and prompt; failures as their messages. */
  function SubmitBfl(settings: Settings, prompt: string, replies: seq<ThirdPartyService.SubmitReply>): (r: Result<string, string>)
    ensures r.Ok? ==> r.value != ""
    ensures settings.bflSettings.NoBfl? ==> r == Err(NullBflMessage)
    ensures settings.bflSettings.Bfl? ==>
      var t := ThirdPartyService.InitiateImageGenerationBfl(
        settings.imageApiKey, prompt, settings.bflSettings.model, settings.imageAspectRatio,
        settings.bflSettings.promptUpsampling, None, replies);
      && (r.Ok? <==> t.result.Ok?)
      && (r.Ok? ==> r.value == t.result.value)
      && (r.Err? ==> r.error == ThirdPartyService.SubmitMessage(t.result.error))
    ensures settings.bflSettings.Bfl? && settings.imageApiKey == "" ==>
      r == Err("BFL API Key is not configured.")
    ensures settings.bflSettings.Bfl? && settings.imageApiKey != "" && settings.bflSettings.model.Null? ==>
      r == Err("Cannot read properties of null (reading 'endsWith')")
    ensures settings.bflSettings.Bfl? && settings.imageApiKey != "" && settings.bflSettings.model.Undefined? ==>
      r == Err("Cannot read properties of undefined (reading 'endsWith')")
    ensures settings.bflSettings.Bfl? && settings.imageApiKey != "" && settings.bflSettings.model.Num? ==>
      r == Err("model.endsWith is not a function")
  {
    match settings.bflSettings
    case NoBfl => Err(NullBflMessage)
    case Bfl(model, promptUpsampling, _) =>
      var t := ThirdPartyService.InitiateImageGenerationBfl(
        settings.imageApiKey, prompt, model, settings.imageAspectRatio, promptUpsampling, None, replies);
      match t.result
      case Ok(id) => Ok(id)
      case Err(e) => Err(ThirdPartyService.SubmitMessage(e))
  }

  /** The synchronous start of a submission: the image flag is set and the status becomes generating. */
  function StartImageGeneration(st: AppState): (r: AppState)
    ensures r.ui.isGenerating.image && r.async.status == Generating
    ensures IsGeneratingImage(r)
    ensures r.async.pollingUrl == st.async.pollingUrl && r.async.pollingAttempts == st.async.pollingAttempts
    ensures forall f :: f != ImageFlag ==> r.ui.isGenerating.Get(f) == st.ui.isGenerating.Get(f)
    ensures r.ui.notifications == st.ui.notifications
    ensures r.character == st.character && r.settings == st.settings
  {
    st.(ui := st.ui.(isGenerating := st.ui.isGenerating.With(ImageFlag, true)),
        async := st.async.(status := Generating))
  }

  /**
   * `handleGenerateImage`. With Google the image arrives in the same call
   * and the lifecycle returns to idle; with BFL a task id starts polling.
   * `google` is what the Google call produced, `replies` what the BFL
   * submission attempts received.
   */
  function HandleGenerateImage(st: AppState, now: int, google: Result<string, string>, replies: seq<ThirdPartyService.SubmitReply>): (r: AppState)
    ensures r.settings == st.settings
    ensures forall f :: f != ImageFlag ==> r.ui.isGenerating.Get(f) == st.ui.isGenerating.Get(f)
    ensures r.ui.isSettingsOpen == st.ui.isSettingsOpen
    ensures |r.ui.notifications| == |st.ui.notifications| + 1
    ensures r.ui.notifications[..|st.ui.notifications|] == st.ui.notifications
    ensures st.settings.imageApiProvider == "google" ==>
      && r.async == InitialAsyncState && !r.ui.isGenerating.image
      && r.character == (if google.Ok? then StoreImage(st.character, google.value, now) else st.character)
    ensures st.settings.imageApiProvider != "google" ==>
      && r.character == st.character
      && (var submitted := SubmitBfl(st.settings, st.character.imagePrompt.value, replies);
          if submitted.Ok? then
            r.async == AsyncState(Polling, Some(submitted.value), 0) && r.ui.isGenerating.image
            && LastNotification(r) == Some(Notification(now, InfoNote, StartedMessage))
          else
            r.async == InitialAsyncState && !r.ui.isGenerating.image
            && LastNotification(r) == Some(Notification(now, ErrorNote, StartErrorPrefix + submitted.error)))
  {
    var started := StartImageGeneration(st);
    if st.settings.imageApiProvider == "google" then
      var done := match google
        case Ok(url) =>
          AddNotification(started.(character := StoreImage(started.character, url, now)), now, SuccessNote, ImageSuccessMessage)
        case Err(message) =>
          AddNotification(started, now, ErrorNote, GoogleErrorPrefix + message);
      done.(ui := done.ui.(isGenerating := done.ui.isGenerating.With(ImageFlag, false)), async := InitialAsyncState)
    else
      match SubmitBfl(st.settings, st.character.imagePrompt.value, replies)
      case Ok(id) =>
        AddNotification(started.(async := AsyncState(Polling, Some(id), 0)), now, InfoNote, StartedMessage)
      case Err(message) =>
        ResetAsyncState(AddNotification(started, now, ErrorNote, StartErrorPrefix + message))
  }

  /* ---------------------------------------------------------------------- */
  /* Text steps                                                              */
  /* ---------------------------------------------------------------------- */

  /** The three generating text steps, each wired to its flag, output, input and prompt. */
  datatype TextStep = ProfileText | CardText | PromptText {

    function Flag(): GenFlag {
      match this
      case ProfileText => ProfileFlag
      case CardText => CardFlag
      case PromptText => PromptFlag
    }

    /** The field the generated text replaces. */
    function Output(): ContentKey {
      match this
      case ProfileText => Profile
      case CardText => Card
      case PromptText => ImagePrompt
    }

    /** The field whose text is sent as input. */
    function Upstream(): ContentKey {
      match this
      case ProfileText => Idea
      case CardText => Profile
      case PromptText => Card
    }

    /** The noun on the panel's button. */
    function Noun(): string {
      match this
      case ProfileText => "Profile"
      case CardText => "Card"
      case PromptText => "Prompt"
    }

    function SystemPrompt(s: Settings): string {
      match this
      case ProfileText => s.profilePrompt
      case CardText => s.cardPrompt
      case PromptText => s.promptPrompt
    }
  }

  /** Each step reads the step before it and writes its own field. */
  lemma TextStepsFormAPipeline(step: TextStep)
    ensures step.Upstream() != step.Output()
    ensures step == CardText ==> step.Upstream() == ProfileText.Output()
    ensures step == PromptText ==> step.Upstream() == CardText.Output()
  {
  }

  /** The step's panel as rendered from the state. */
  function TextView(st: AppState, step: TextStep): (v: StepView.TextStepView)
    ensures v.generateDisabled <==> st.ui.isGenerating.Get(step.Flag()) || st.character.Get(step.Upstream()).value == ""
    ensures v.isDirty <==>
      var up := st.character.Get(step.Upstream());
      var own := st.character.Get(step.Output());
      up.lastModified > own.lastGenerated && own.lastGenerated != 0
  {
    var c := st.character;
    StepView.TextPanel(c.Get(step.Upstream()), c.Get(step.Output()), st.ui.isGenerating.Get(step.Flag()), step.Noun())
  }

  /** The request a step's button sends: its system prompt and the upstream text. */
  datatype TextRequest = TextRequest(systemPrompt: string, input: string)

  /**
   * The three buttons' wiring: the profile is generated from the idea with
   * the profile prompt, the card from the profile with the card prompt, the
   * image prompt from the card with the prompt prompt.
   */
  function RequestFor(st: AppState, step: TextStep): (q: TextRequest)
    ensures step == ProfileText ==> q == TextRequest(st.settings.profilePrompt, st.character.idea.value)
    ensures step == CardText ==> q == TextRequest(st.settings.cardPrompt, st.character.profile.value)
    ensures step == PromptText ==> q == TextRequest(st.settings.promptPrompt, st.character.card.value)
  {
    TextRequest(step.SystemPrompt(st.settings), st.character.Get(step.Upstream()).value)
  }

  /** A step's button is enabled only when the request would carry a non-empty input. */
  lemma EnabledStepSendsInput(st: AppState, step: TextStep)
    requires !TextView(st, step).generateDisabled
    ensures RequestFor(st, step).input != ""
  {
  }

  function UpperAscii(c: char): char {
    if 'a' <= c <= 'z' then (c as int - 32) as char else c
  }

  /** `s.charAt(0).toUpperCase() + s.slice(1)` for ASCII text. */
  function Capitalize(s: string): (r: string)
    ensures |r| == |s|
    ensures |s| > 0 ==> r[1..] == s[1..]
  {
    if |s| == 0 then "" else [UpperAscii(s[0])] + s[1..]
  }

  function GeneratedMessage(k: ContentKey): string {
    Capitalize(k.Name()) + " generated successfully."
  }

  function GenerateErrorMessage(k: ContentKey, message: string): string {
    "Error generating " + k.Name() + ": " + message
  }

  /**
   * The success toasts capitalise the field name only: "Profile generated
   * successfully.", "Card generated successfully.", "ImagePrompt generated
   * successfully.".
   */
  lemma CapitalizedNames()
    ensures Capitalize(Profile.Name()) == "Profile"
    ensures Capitalize(Card.Name()) == "Card"
    ensures Capitalize(ImagePrompt.Name()) == "ImagePrompt"
  {
    var p, c, i := "profile", "card", "imagePrompt";
    assert UpperAscii(p[0]) == 'P' && p[1..] == "rofile";
    assert UpperAscii(c[0]) == 'C' && c[1..] == "ard";
    assert UpperAscii(i[0]) == 'I' && i[1..] == "magePrompt";
  }

  /** The outcome of the text call: Google directly, otherwise through the OpenAI-compatible guard. */
  function TextOutcome(settings: Settings, exchange: Result<string, string>): (r: Result<string, string>)
    ensures settings.llmApiProvider == "google" ==> r == exchange
    ensures settings.llmApiProvider != "google" && (settings.llmApiUrl == "" || settings.llmApiKey == "") ==>
      r == Err(ThirdPartyService.TextConfigError)
    ensures settings.llmApiProvider != "google" && settings.llmApiUrl != "" && settings.llmApiKey != "" ==>
      r == exchange
  {
    if settings.llmApiProvider == "google" then exchange
    else ThirdPartyService.GenerateTextOpenAI(settings.llmApiUrl, settings.llmApiKey, exchange)
  }

  /**
   * `handleGenerate`: on success the step's field is replaced by the
   * generated text, stamped as modified and generated now; either way one
   * toast is raised and the step's flag ends cleared.
   */
  function HandleGenerate(st: AppState, step: TextStep, now: int, exchange: Result<string, string>): (r: AppState)
    ensures !r.ui.isGenerating.Get(step.Flag())
    ensures forall f :: f != step.Flag() ==> r.ui.isGenerating.Get(f) == st.ui.isGenerating.Get(f)
    ensures r.async == st.async && r.settings == st.settings
    ensures r.ui.isSettingsOpen == st.ui.isSettingsOpen
    ensures |r.ui.notifications| == |st.ui.notifications| + 1
    ensures r.ui.notifications[..|st.ui.notifications|] == st.ui.notifications
    ensures forall k :: k != step.Output() ==> r.character.Get(k) == st.character.Get(k)
    ensures r.character.generatedImageUrl == st.character.generatedImageUrl
    ensures r.character.generatedImageData == st.character.generatedImageData
    ensures var o := TextOutcome(st.settings, exchange);
      if o.Ok? then
        r.character.Get(step.Output()) == Content(o.value, now, now)
        && LastNotification(r) == Some(Notification(now, SuccessNote, GeneratedMessage(step.Output())))
      else
        r.character == st.character
        && LastNotification(r) == Some(Notification(now, ErrorNote, GenerateErrorMessage(step.Output(), o.error)))
  {
    var started := st.(ui := st.ui.(isGenerating := st.ui.isGenerating.With(step.Flag(), true)));
    var done := match TextOutcome(st.settings, exchange)
      case Ok(text) =>
        AddNotification(started.(character := started.character.With(step.Output(), Content(text, now, now))),
                        now, SuccessNote, GeneratedMessage(step.Output()))
      case Err(message) =>
        AddNotification(started, now, ErrorNote, GenerateErrorMessage(step.Output(), message));
    done.(ui := done.ui.(isGenerating := done.ui.isGenerating.With(step.Flag(), false)))
  }

  /** A freshly generated step is in sync with an input that was last edited no later than now. */
  lemma GeneratedStepIsInSync(st: AppState, step: TextStep, now: int, text: string)
    requires TextOutcome(st.settings, Ok(text)).Ok?
    requires st.character.Get(step.Upstream()).lastModified <= now
    ensures !TextView(HandleGenerate(st, step, now, Ok(text)), step).isDirty
  {
    TextStepsFormAPipeline(step);
  }

  /**
   * `handleUpdateContent`: the field takes the typed text and is stamped as
   * modified now; its generation time is kept.
   */
  function HandleUpdateContent(st: AppState, key: ContentKey, value: string, now: int): (r: AppState)
    ensures r.character.Get(key) == Content(value, now, st.character.Get(key).lastGenerated)
    ensures forall k :: k != key ==> r.character.Get(k) == st.character.Get(k)
    ensures r.character.generatedImageUrl == st.character.generatedImageUrl
    ensures r.character.generatedImageData == st.character.generatedImageData
    ensures r.ui == st.ui && r.async == st.async && r.settings == st.settings
  {
    var current := st.character.Get(key);
    st.(character := st.character.With(key, current.(value := value, lastModified := now)))
  }

  /** Editing a step's input after that step was generated marks it out of sync. */
  lemma EditMarksDownstreamOutOfSync(st: AppState, step: TextStep, value: string, now: int)
    requires 0 != st.character.Get(step.Output()).lastGenerated < now
    ensures TextView(HandleUpdateContent(st, step.Upstream(), value, now), step).isDirty
  {
    TextStepsFormAPipeline(step);
  }

  /** Editing the image prompt after an image was made marks the image out of sync. */
  lemma EditMarksImageOutOfSync(st: AppState, value: string, now: int)
    requires TruthyText(st.character.generatedImageUrl)
    requires st.character.imagePrompt.lastGenerated < now
    ensures ImageView(HandleUpdateContent(st, ImagePrompt, value, now)).isDirty
  {
  }

  /* ---------------------------------------------------------------------- */
  /* Project files                                                           */
  /* ---------------------------------------------------------------------- */

  const SaveWarningMessage := "Could not save image data. Project file will link to URL."
  const SavedMessage := "Project saved!"
  const LoadFailedMessage := "Failed to load project file. It may be corrupted."
  const LoadedMessage := "Project loaded successfully!"

  predicate IsDataUrl(url: Option<string>) {
    url.Some? && StartsWith(url.value, "data:")
  }

  /** The character written to a project file: the image inlined as a data URL when possible. */
  function InlineImage(c: CharacterData, fetched: Result<string, string>): (r: CharacterData)
    ensures forall k :: r.Get(k) == c.Get(k)
    ensures r.generatedImageUrl == c.generatedImageUrl
    ensures IsDataUrl(c.generatedImageUrl) ==> r.generatedImageData == c.generatedImageUrl
    ensures TruthyText(c.generatedImageUrl) && !IsDataUrl(c.generatedImageUrl) && fetched.Ok? ==>
      r.generatedImageData == Some(fetched.value)
    ensures !TruthyText(c.generatedImageUrl) || (!IsDataUrl(c.generatedImageUrl) && fetched.Err?) ==>
      r.generatedImageData == c.generatedImageData
  {
    if TruthyText(c.generatedImageUrl) && !IsDataUrl(c.generatedImageUrl) then
      match fetched
      case Ok(dataUrl) => c.(generatedImageData := Some(dataUrl))
      case Err(_) => c
    else if IsDataUrl(c.generatedImageUrl) then c.(generatedImageData := c.generatedImageUrl)
    else c
  }

  datatype SaveOutcome = SaveOutcome(state: AppState, file: ProjectFile)

  /**
   * `handleSaveProject`: writes the character (image inlined) and the
   * settings. `fetched` is the data URL read back from the image link, or
   * why that failed; the live state only gains toasts.
   */
  function HandleSaveProject(st: AppState, now: int, fetched: Result<string, string>): (r: SaveOutcome)
    ensures r.file == ProjectFile(InlineImage(st.character, fetched), st.settings)
    ensures r.state.character == st.character && r.state.async == st.async && r.state.settings == st.settings
    ensures r.state.ui.isGenerating == st.ui.isGenerating
    ensures LastNotification(r.state) == Some(Notification(now, SuccessNote, SavedMessage))
    ensures r.state.ui.isSettingsOpen == st.ui.isSettingsOpen
    ensures var warned := TruthyText(st.character.generatedImageUrl) && !IsDataUrl(st.character.generatedImageUrl) && fetched.Err?;
      && |r.state.ui.notifications| == |st.ui.notifications| + (if warned then 2 else 1)
      && r.state.ui.notifications[..|st.ui.notifications|] == st.ui.notifications
      && (warned ==> r.state.ui.notifications[|st.ui.notifications|] == Notification(now, WarningNote, SaveWarningMessage))
  {
    var c := st.character;
    var warned := TruthyText(c.generatedImageUrl) && !IsDataUrl(c.generatedImageUrl) && fetched.Err?;
    var st1 := if warned then AddNotification(st, now, WarningNote, SaveWarningMessage) else st;
    SaveOutcome(AddNotification(st1, now, SuccessNote, SavedMessage), ProjectFile(InlineImage(c, fetched), st.settings))
  }

  /** A BFL field with every member present (absent members are filled from the defaults). */
  predicate BflComplete(b: BflField) {
    b.Bfl? && !b.model.Undefined? && !b.promptUpsampling.Undefined? && !b.safetyTolerance.Undefined?
  }

  /** `{ ...DEFAULT_SETTINGS.bflSettings, ...(bfl || {}) }`. */
  function MergeBfl(bfl: Option<BflField>): (r: BflField)
    ensures BflComplete(r)
    ensures bfl.Some? && BflComplete(bfl.value) ==> r == bfl.value
    ensures bfl.None? || bfl == Some(NoBfl) ==> r == DefaultBflSettings
    ensures bfl.Some? && bfl.value.Bfl? ==>
      && (!bfl.value.model.Undefined? ==> r.model == bfl.value.model)
      && (bfl.value.model.Undefined? ==> r.model == DefaultBflSettings.model)
      && (!bfl.value.promptUpsampling.Undefined? ==> r.promptUpsampling == bfl.value.promptUpsampling)
      && (bfl.value.promptUpsampling.Undefined? ==> r.promptUpsampling == DefaultBflSettings.promptUpsampling)
      && (!bfl.value.safetyTolerance.Undefined? ==> r.safetyTolerance == bfl.value.safetyTolerance)
      && (bfl.value.safetyTolerance.Undefined? ==> r.safetyTolerance == DefaultBflSettings.safetyTolerance)
  {
    var d := DefaultBflSettings;
    match bfl
    case None => d
    case Some(NoBfl) => d
    case Some(Bfl(m, u, t)) =>
      Bfl(if m.Undefined? then d.model else m,
          if u.Undefined? then d.promptUpsampling else u,
          if t.Undefined? then d.safetyTolerance else t)
  }

  /** `{ ...DEFAULT_SETTINGS, ...p, bflSettings: merged }`: each absent key takes its default. */
  function MergeSettings(p: SettingsPatch): (s: Settings)
    ensures BflComplete(s.bflSettings)
    ensures s.bflSettings == MergeBfl(p.bflSettings)
    ensures forall k: TextKey :: PatchTextAt(p, k).Some? ==> TextAt(s, k) == PatchTextAt(p, k).value
    ensures forall k: TextKey :: PatchTextAt(p, k).None? ==> TextAt(s, k) == TextAt(DefaultSettings, k)
  {
    var d := DefaultSettings;
    Settings(
      p.llmApiProvider.GetOr(d.llmApiProvider), p.llmModel.GetOr(d.llmModel),
      p.llmApiUrl.GetOr(d.llmApiUrl), p.llmApiKey.GetOr(d.llmApiKey),
      p.imageApiProvider.GetOr(d.imageApiProvider), p.imageModel.GetOr(d.imageModel),
      p.imageApiUrl.GetOr(d.imageApiUrl), p.imageApiKey.GetOr(d.imageApiKey),
      p.imageAspectRatio.GetOr(d.imageAspectRatio), p.profilePrompt.GetOr(d.profilePrompt),
      p.cardPrompt.GetOr(d.cardPrompt), p.promptPrompt.GetOr(d.promptPrompt),
      MergeBfl(p.bflSettings))
  }

  /** Merging a full settings object returns it unchanged. */
  lemma MergeOfCompleteIsIdentity(s: Settings)
    requires BflComplete(s.bflSettings)
    ensures MergeSettings(AsPatch(s)) == s
  {
  }

  /** Merging an empty object yields the defaults. */
  lemma MergeOfEmptyIsDefault()
    ensures MergeSettings(SettingsPatch(None, None, None, None, None, None, None, None, None, None, None, None, None)) == DefaultSettings
  {
  }

  /** Settings the validator accepts have a complete BFL field, so they survive a merge. */
  lemma ValidSettingsAreComplete(s: Settings)
    requires SettingsService.ValidateSettings(s).isValid
    ensures BflComplete(s.bflSettings)
    ensures MergeSettings(AsPatch(s)) == s
  {
    SettingsService.ValidIffNoViolation(s);
    SettingsService.ConformingBflIsWellTyped(s);
    MergeOfCompleteIsIdentity(s);
  }

  /** The chosen file: none, or its text, parsed (`None` when it is not JSON). */
  datatype ProjectInput = NoFileChosen | ProjectText(doc: Option<ProjectDoc>)

  /** Shows the inline copy of the image in place of its link, when there is one. */
  function RestoreImage(c: CharacterData): (r: CharacterData)
    ensures forall k :: r.Get(k) == c.Get(k)
    ensures r.generatedImageData == c.generatedImageData
    ensures r.generatedImageUrl == (if TruthyText(c.generatedImageData) then c.generatedImageData else c.generatedImageUrl)
  {
    if TruthyText(c.generatedImageData) then c.(generatedImageUrl := c.generatedImageData) else c
  }

  /**
   * `handleLoadProject`: a file missing either part is rejected with one
   * toast; otherwise the character replaces the current one (its inline
   * image shown) and the settings are merged over the defaults.
   */
  function HandleLoadProject(st: AppState, now: int, input: ProjectInput): (r: AppState)
    ensures input.NoFileChosen? ==> r == st
    ensures r.async == st.async && r.ui.isGenerating == st.ui.isGenerating
    ensures r.ui.isSettingsOpen == st.ui.isSettingsOpen
    ensures input.ProjectText? ==>
      && |r.ui.notifications| == |st.ui.notifications| + 1
      && r.ui.notifications[..|st.ui.notifications|] == st.ui.notifications
    ensures input.ProjectText? && (input.doc.None? || input.doc.value.characterData.None? || input.doc.value.settings.None?) ==>
      && r.character == st.character && r.settings == st.settings
      && LastNotification(r) == Some(Notification(now, ErrorNote, LoadFailedMessage))
    ensures input.ProjectText? && input.doc.Some? && input.doc.value.characterData.Some? && input.doc.value.settings.Some? ==>
      && r.character == RestoreImage(input.doc.value.characterData.value)
      && r.settings == MergeSettings(input.doc.value.settings.value)
      && LastNotification(r) == Some(Notification(now, SuccessNote, LoadedMessage))
  {
    match input
    case NoFileChosen => st
    case ProjectText(doc) =>
      if doc.None? || doc.value.characterData.None? || doc.value.settings.None? then
        AddNotification(st, now, ErrorNote, LoadFailedMessage)
      else
        var loaded := st.(character := RestoreImage(doc.value.characterData.value),
                          settings := MergeSettings(doc.value.settings.value));
        AddNotification(loaded, now, SuccessNote, LoadedMessage)
  }

  /** An inline copy of the image, when present, is the image shown. */
  predicate ImageDataConsistent(c: CharacterData) {
    TruthyText(c.generatedImageData) ==> c.generatedImageUrl == c.generatedImageData
  }

  /**
   * Saving a project and loading the file back restores the settings and
   * every text, and still shows an image if one was shown: the inline copy
   * when one was made, the original link otherwise.
   */
  lemma ProjectRoundTrip(st: AppState, now: int, fetched: Result<string, string>, other: AppState, later: int)
    requires BflComplete(st.settings.bflSettings)
    requires ImageDataConsistent(st.character)
    ensures var file := HandleSaveProject(st, now, fetched).file;
      var r := HandleLoadProject(other, later, ProjectText(Some(AsDoc(file))));
      && r.settings == st.settings
      && (forall k :: r.character.Get(k) == st.character.Get(k))
      && (IsDataUrl(st.character.generatedImageUrl) ==> r.character.generatedImageUrl == st.character.generatedImageUrl)
      && (TruthyText(st.character.generatedImageUrl) ==> TruthyText(r.character.generatedImageUrl))
      && (r.character.generatedImageUrl == st.character.generatedImageUrl
          || (fetched.Ok? && r.character.generatedImageUrl == Some(fetched.value)))
  {
    MergeOfCompleteIsIdentity(st.settings);
  }

  /** A loaded project's character keeps its inline copy and its link consistent. */
  lemma LoadedImageIsConsistent(c: CharacterData)
    ensures ImageDataConsistent(RestoreImage(c))
  {
  }

  /* ---------------------------------------------------------------------- */
  /* Settings at the application level                                       */
  /* ---------------------------------------------------------------------- */

  const VersionMismatchMessage := "Settings loaded with some defaults (version mismatch)"
  const SettingsResetMessage := "Settings reset to defaults"

  /**
   * The start-up effect: stored settings are merged over the defaults; a
   * stored entry that cannot be used raises a warning; nothing stored
   * leaves the defaults in place silently.
   */
  function LoadStoredSettings(st: AppState, store: SettingsService.Store, now: int): (r: AppState)
    ensures r.character == st.character && r.async == st.async && r.ui.isGenerating == st.ui.isGenerating
    ensures SettingsService.LoadSettings(store).Some? ==>
      r.settings == MergeSettings(SettingsService.LoadSettings(store).value) && r.ui == st.ui
    ensures SettingsService.LoadSettings(store).None? && SettingsService.HasStoredSettings(store) ==>
      && r.settings == st.settings && r.ui.isSettingsOpen == st.ui.isSettingsOpen
      && r.ui.notifications == st.ui.notifications + [Notification(now, WarningNote, VersionMismatchMessage)]
    ensures !SettingsService.HasStoredSettings(store) ==> r == st
  {
    match SettingsService.LoadSettings(store)
    case Some(p) => st.(settings := MergeSettings(p))
    case None =>
      if SettingsService.HasStoredSettings(store) then AddNotification(st, now, WarningNote, VersionMismatchMessage)
      else st
  }

  /** Settings saved to the store come back unchanged at the next start. */
  lemma SettingsSurviveRestart(st: AppState, store: SettingsService.Store, s: Settings, saved: int, now: int)
    requires BflComplete(s.bflSettings)
    ensures LoadStoredSettings(st, SettingsService.SaveSettings(store, s, saved), now).settings == s
  {
    SettingsService.SaveThenLoad(store, s, saved);
    MergeOfCompleteIsIdentity(s);
  }

  datatype ResetOutcome = ResetOutcome(state: AppState, store: SettingsService.Store)

  /** `handleResetSettings`: the store is cleared and the defaults take effect. */
  function HandleResetSettings(st: AppState, store: SettingsService.Store, now: int): (r: ResetOutcome)
    ensures r.state.settings == DefaultSettings
    ensures !SettingsService.HasStoredSettings(r.store)
    ensures forall k :: k != SettingsService.SettingsStorageKey ==> (k in r.store <==> k in store)
    ensures forall k :: k != SettingsService.SettingsStorageKey && k in store ==> r.store[k] == store[k]
    ensures r.state.character == st.character && r.state.async == st.async
    ensures r.state.ui.isGenerating == st.ui.isGenerating && r.state.ui.isSettingsOpen == st.ui.isSettingsOpen
    ensures r.state.ui.notifications == st.ui.notifications + [Notification(now, SuccessNote, SettingsResetMessage)]
  {
    ResetOutcome(AddNotification(st.(settings := DefaultSettings), now, SuccessNote, SettingsResetMessage),
                 SettingsService.ClearSettings(store))
  }

  /** After a reset, a restart reads nothing back and keeps the defaults. */
  lemma ResetThenRestartKeepsDefaults(st: AppState, store: SettingsService.Store, now: int, other: AppState, later: int)
    ensures var reset := HandleResetSettings(st, store, now);
      LoadStoredSettings(other, reset.store, later) == other
  {
  }

  /**
   * The auto-save effect: once the first render is past, every change of the
   * settings writes them to the store, so the store reads back what the
   * application now holds.
   */
  function AutoSaveSettings(store: SettingsService.Store, current: Settings, now: int): (r: SettingsService.Store)
    ensures SettingsService.LoadSettings(r) == Some(AsPatch(current))
    ensures SettingsService.GetSettingsLastSaved(r) == Some(now)
  {
    SettingsService.SaveThenLoad(store, current, now);
    SettingsService.SaveSettings(store, current, now)
  }

  /**
   * A reset followed by the auto-save it triggers stores the defaults, and a
   * restart reads the defaults back.
   */
  lemma ResetAutoSaveThenRestartKeepsDefaults(st: AppState, store: SettingsService.Store, now: int, saved: int, other: AppState, later: int)
    ensures var reset := HandleResetSettings(st, store, now);
      var stored := AutoSaveSettings(reset.store, reset.state.settings, saved);
      && SettingsService.HasStoredSettings(stored)
      && LoadStoredSettings(other, stored, later).settings == DefaultSettings
  {
    var reset := HandleResetSettings(st, store, now);
    Constants.DefaultSettingsAreValid();
    ValidSettingsAreComplete(DefaultSettings);
    SettingsSurviveRestart(other, reset.store, DefaultSettings, saved, later);
  }

  /**
   * The settings panel's save: settings the validator accepts replace the
   * application's and the panel closes; rejected settings change nothing
   * outside the panel, which stays open showing the errors.
   */
  function ApplyPanelSettings(st: AppState, candidate: Settings): (r: AppState)
    ensures SettingsService.ValidateSettings(candidate).isValid ==>
      r == st.(settings := candidate, ui := st.ui.(isSettingsOpen := false))
    ensures !SettingsService.ValidateSettings(candidate).isValid ==> r == st
  {
    if SettingsService.ValidateSettings(candidate).isValid then
      st.(settings := candidate, ui := st.ui.(isSettingsOpen := false))
    else st
  }

  /**
   * Saving from the panel never installs settings the validator rejects:
   * the settings afterwards are the old ones or valid ones, and the panel
   * is closed exactly when they changed to the candidate.
   */
  lemma PanelInstallsOnlyValidSettings(st: AppState, candidate: Settings)
    requires st.ui.isSettingsOpen
    ensures var r := ApplyPanelSettings(st, candidate);
      && (r.settings == st.settings || SettingsService.ValidateSettings(r.settings).isValid)
      && (!r.ui.isSettingsOpen <==> SettingsService.ValidateSettings(candidate).isValid)
  {
  }
}

=== FILE: constants.dfy ===
/**
 * The application's starting values: default settings, the BFL defaults
 * and model list, and the initial character, UI and image-generation state.
 */
module Constants {
  import opened Wrappers
  import opened Js
  import opened Types
  import SettingsService
  import StepView
  import ImageStep

  /** `DEFAULT_BFL_SETTINGS`. */
  const DefaultBflSettings: BflField := Bfl(Str("flux-pro-1.1"), Bool(false), Num(6.0))

  /** `BFL_MODELS`, in the order the settings panel lists them. */
  const BflModels: seq<string> := ["flux-pro-1.1-ultra", "flux-pro-1.1", "flux-pro", "flux-dev"]

  /**
   * The three system prompts are long prose instructions for the language
   * model; the model keeps them as named placeholders because nothing in
   * the application inspects their text.
   */
  const DefaultProfilePrompt: string := "DEFAULT_PROFILE_PROMPT"
  const DefaultCardPrompt: string := "DEFAULT_CARD_PROMPT"
  const DefaultPromptPrompt: string := "DEFAULT_PROMPT_PROMPT"

  /** `DEFAULT_SETTINGS`: Google for both text and images, no keys, square images. */
  const DefaultSettings: Settings := Settings(
    "google", "gemini-2.5-flash", "", "",
    "google", "imagen-4.0-generate-001", "", "",
    "1:1", DefaultProfilePrompt, DefaultCardPrompt, DefaultPromptPrompt,
    DefaultBflSettings)

  const InitialIdea: string :=
    "A grizzled old detective living in a futuristic city who has seen too much but still believes in justice."

  /**
   * `INITIAL_CHARACTER_DATA`: every text is stamped as modified when the
   * module was loaded and as never generated.
   */
  function InitialCharacterData(loadTime: int): (c: CharacterData)
    ensures forall k :: c.Get(k).lastModified == loadTime && c.Get(k).lastGenerated == 0
    ensures c.idea.value == InitialIdea
    ensures forall k :: k != Idea ==> c.Get(k).value == ""
    ensures c.generatedImageUrl.None? && c.generatedImageData.None?
  {
    var initialContent := Content("", loadTime, 0);
    CharacterData(initialContent.(value := InitialIdea), initialContent, initialContent, initialContent, None, None)
  }

  /** `INITIAL_UI_STATE`. */
  const InitialUiState: UiState := UiState(GenFlags(false, false, false, false), [], false)

  /** `INITIAL_ASYNC_STATE`. */
  const InitialAsyncState: AsyncState := AsyncState(Idle, None, 0)

  /** Nothing is in progress at start: no flag set, no toast, settings closed, the lifecycle idle. */
  lemma InitialStatesAreQuiet()
    ensures forall f :: !InitialUiState.isGenerating.Get(f)
    ensures InitialUiState.notifications == [] && !InitialUiState.isSettingsOpen
    ensures InitialAsyncState.status == Idle && InitialAsyncState.pollingUrl.None? && InitialAsyncState.pollingAttempts == 0
  {
  }

  /** The BFL model list and the union it is typed by name the same models. */
  lemma BflModelsMatchUnion()
    ensures BflModels == BflModelNames
    ensures forall m :: m in BflModels <==> SettingsService.KnownBflModel(Str(m))
  {
  }

  /** The BFL defaults pass each BFL rule of the validator. */
  lemma DefaultBflSettingsAreValid(s: Settings)
    requires s.bflSettings == DefaultBflSettings
    ensures !SettingsService.Violates(s, SettingsService.InvalidBflModel)
    ensures !SettingsService.Violates(s, SettingsService.UpsamplingNotBoolean)
    ensures !SettingsService.Violates(s, SettingsService.ToleranceOutOfRange)
    ensures !SettingsService.Violates(s, SettingsService.MissingBflSettings)
  {
  }

  /** The default settings break none of the validator's rules. */
  lemma DefaultSettingsConform(i: SettingsService.Issue)
    ensures !SettingsService.Violates(DefaultSettings, i)
  {
    var s := DefaultSettings;
    assert s.llmApiProvider in ApiProviders && s.imageApiProvider in ApiProviders;
    assert s.imageAspectRatio in AspectRatios;
    DefaultBflSettingsAreValid(s);
  }

  /** The default settings validate without a single error. */
  lemma DefaultSettingsAreValid()
    ensures SettingsService.ValidateSettings(DefaultSettings).isValid
    ensures SettingsService.ValidateSettings(DefaultSettings).errors == []
  {
    forall i ensures !SettingsService.Violates(DefaultSettings, i) {
      DefaultSettingsConform(i);
    }
    SettingsService.ValidIffNoViolation(DefaultSettings);
  }

  /** On a fresh start no step is out of sync and no image is offered for download. */
  lemma InitialStepsAreClean(loadTime: int, statusText: string)
    ensures var c := InitialCharacterData(loadTime);
      && !StepView.TextPanel(c.idea, c.profile, false, "Profile").isDirty
      && !StepView.TextPanel(c.profile, c.card, false, "Card").isDirty
      && !StepView.TextPanel(c.card, c.imagePrompt, false, "Prompt").isDirty
      && !ImageStep.View(c.imagePrompt, c.generatedImageUrl, false, statusText).isDirty
      && !ImageStep.View(c.imagePrompt, c.generatedImageUrl, false, statusText).downloadEnabled
  {
  }

  /** On a fresh start only the profile can be generated: the later steps lack their input. */
  lemma InitialGenerateButtons(loadTime: int, statusText: string)
    ensures var c := InitialCharacterData(loadTime);
      && !StepView.TextPanel(c.idea, c.profile, false, "Profile").generateDisabled
      && StepView.TextPanel(c.profile, c.card, false, "Card").generateDisabled
      && StepView.TextPanel(c.card, c.imagePrompt, false, "Prompt").generateDisabled
      && ImageStep.View(c.imagePrompt, c.generatedImageUrl, false, statusText).generateDisabled
  {
  }
}

=== FILE: js.dfy ===
/**
 * The few pieces of JavaScript runtime behaviour the application relies on:
 * loosely typed values read back from JSON, truthiness, `String.prototype`
 * helpers (`trim`, `startsWith`, `endsWith`), number-to-text conversion and
 * the default ordering used by `Array.prototype.sort`.
 */
module Js {

  /**
   * A JSON-derived value whose type the program checks at run time.
   * `Undefined` stands for a key that is absent from its object; `Num` is
   * exact (NaN and infinities do not arise from JSON).
   */
  datatype Value = Undefined | Null | Bool(b: bool) | Num(n: real) | Str(s: string)

  /** JavaScript truthiness of a loosely typed value. */
  predicate Truthy(v: Value) {
    match v
    case Undefined => false
    case Null => false
    case Bool(b) => b
    case Num(n) => n != 0.0
    case Str(s) => s != ""
  }

  /** `s.startsWith(prefix)`. */
  predicate StartsWith(s: string, prefix: string) {
    |prefix| <= |s| && s[..|prefix|] == prefix
  }

  /** `s.endsWith(suffix)`. */
  predicate EndsWith(s: string, suffix: string) {
    |suffix| <= |s| && s[|s| - |suffix|..] == suffix
  }

  /**
   * The characters `String.prototype.trim` removes: ECMAScript WhiteSpace
   * (TAB, VT, FF, ZWNBSP and every Zs space) and LineTerminator (LF, CR,
   * LS, PS).
   */
  predicate IsSpace(c: char) {
    || c == '\t' || c == '\n' || c == '\U{000B}' || c == '\U{000C}' || c == '\r'
    || c == ' ' || c == '\U{00A0}' || c == '\U{1680}'
    || ('\U{2000}' <= c <= '\U{200A}')
    || c == '\U{2028}' || c == '\U{2029}' || c == '\U{202F}' || c == '\U{205F}'
    || c == '\U{3000}' || c == '\U{FEFF}'
  }

  /** Every character of `s` is white space (vacuously true of ""). */
  predicate Blank(s: string) {
    forall i :: 0 <= i < |s| ==> IsSpace(s[i])
  }

  /** Drops leading white space. */
  function TrimStart(s: string): (r: string)
    ensures |r| <= |s| && r == s[|s| - |r|..]
    ensures Blank(s[..|s| - |r|])
    ensures r == "" || !IsSpace(r[0])
    decreases |s|
  {
    if |s| > 0 && IsSpace(s[0]) then
      var r := TrimStart(s[1..]);
      assert s[1..][..|s[1..]| - |r|] == s[1..|s| - |r|];
      r
    else s
  }

  /** Drops trailing white space. */
  function TrimEnd(s: string): (r: string)
    ensures |r| <= |s| && r == s[..|r|]
    ensures Blank(s[|r|..])
    ensures r == "" || !IsSpace(r[|r| - 1])
    decreases |s|
  {
    if |s| > 0 && IsSpace(s[|s| - 1]) then
      var r := TrimEnd(s[..|s| - 1]);
      assert s[..|s| - 1][|r|..] + [s[|s| - 1]] == s[|r|..];
      r
    else s
  }

  /** `s.trim()`. */
  function Trim(s: string): string {
    TrimEnd(TrimStart(s))
  }

  /** `!s.trim()` holds exactly when the string is all white space. */
  lemma TrimEmptyIffBlank(s: string)
    ensures Trim(s) == "" <==> Blank(s)
  {
    var t := TrimStart(s);
    var k := |s| - |t|;
    if Trim(s) == "" {
      assert t[0..] == t;
      assert t == "";
      assert s[..k] == s;
    }
  }

  /** The decimal digit for `d`. */
  function Digit(d: nat): char
    requires d < 10
  {
    "0123456789"[d]
  }

  /** The number spelled by the decimal digits of `s`. */
  function DecimalValue(s: string): nat
    requires forall i :: 0 <= i < |s| ==> '0' <= s[i] <= '9'
  {
    if |s| == 0 then 0
    else DecimalValue(s[..|s| - 1]) * 10 + ((s[|s| - 1] as int) - ('0' as int))
  }

  /** A digit character spells its own value. */
  lemma DigitValue(d: nat)
    requires d < 10
    ensures '0' <= Digit(d) <= '9'
    ensures (Digit(d) as int) - ('0' as int) == d
  {
  }

  /**
   * `String(n)` for a non-negative integer: its decimal digits, without a
   * leading zero, spelling `n` back.
   */
  function NatToString(n: nat): (r: string)
    ensures |r| >= 1
    ensures forall i :: 0 <= i < |r| ==> '0' <= r[i] <= '9'
    ensures DecimalValue(r) == n
    ensures |r| > 1 ==> r[0] != '0'
    decreases n
  {
    DigitValue(n % 10);
    if n < 10 then [Digit(n)]
    else
      var r := NatToString(n / 10) + [Digit(n % 10)];
      assert r[..|r| - 1] == NatToString(n / 10);
      r
  }

  /**
   * The default order of `Array.prototype.sort` on strings: lexicographic by
   * character.
   */
  predicate Le(a: string, b: string)
    decreases |a|
  {
    |a| == 0 || (|b| > 0 && (a[0] < b[0] || (a[0] == b[0] && Le(a[1..], b[1..]))))
  }

  lemma {:induction false} LeTotal(a: string, b: string)
    ensures Le(a, b) || Le(b, a)
    decreases |a|
  {
    if |a| > 0 && |b| > 0 && a[0] == b[0] {
      LeTotal(a[1..], b[1..]);
    }
  }

  lemma {:induction false} LeTransitive(a: string, b: string, c: string)
    requires Le(a, b) && Le(b, c)
    ensures Le(a, c)
    decreases |a|
  {
    if |a| > 0 && a[0] == b[0] && b[0] == c[0] {
      LeTransitive(a[1..], b[1..], c[1..]);
    }
  }

  predicate Sorted(s: seq<string>) {
    forall i, j :: 0 <= i < j < |s| ==> Le(s[i], s[j])
  }

  /** An element no greater than the first of a sorted sequence can go in front of it. */
  lemma PrependSmallest(x: string, s: seq<string>)
    requires Sorted(s) && |s| > 0 && Le(x, s[0])
    ensures Sorted([x] + s)
  {
    forall j | 0 <= j < |s|
      ensures Le(x, s[j])
    {
      if j > 0 { LeTransitive(x, s[0], s[j]); }
    }
  }

  /** An element no greater than any member of a sorted sequence can go in front of it. */
  lemma PrependLowerBound(h: string, t: seq<string>)
    requires Sorted(t)
    requires forall y :: y in multiset(t) ==> Le(h, y)
    ensures Sorted([h] + t)
  {
    forall i, j | 0 <= i < j < |[h] + t|
      ensures Le(([h] + t)[i], ([h] + t)[j])
    {
      if i == 0 {
        assert t[j - 1] in multiset(t);
      }
    }
  }

  /** The head of a sorted sequence bounds everything left after it with `x` added, when it bounds `x`. */
  lemma HeadBoundsRest(x: string, s: seq<string>, rest: seq<string>)
    requires Sorted(s) && |s| > 0 && Le(s[0], x)
    requires multiset(rest) == multiset(s[1..]) + multiset{x}
    ensures forall y :: y in multiset(rest) ==> Le(s[0], y)
  {
    forall y | y in multiset(rest)
      ensures Le(s[0], y)
    {
      if y != x {
        assert y in multiset(s[1..]);
        var j :| 0 <= j < |s[1..]| && s[1..][j] == y;
        assert s[j + 1] == y;
      }
    }
  }

  /** Places `x` into an already sorted sequence. */
  function Insert(x: string, s: seq<string>): (r: seq<string>)
    requires Sorted(s)
    ensures Sorted(r)
    ensures multiset(r) == multiset(s) + multiset{x}
    decreases |s|
  {
    if |s| == 0 then [x]
    else if Le(x, s[0]) then
      PrependSmallest(x, s);
      [x] + s
    else
      LeTotal(x, s[0]);
      assert s == [s[0]] + s[1..];
      var rest := Insert(x, s[1..]);
      HeadBoundsRest(x, s, rest);
      PrependLowerBound(s[0], rest);
      [s[0]] + rest
  }

  /** `ids.sort()` with the default comparator: a sorted permutation. */
  function SortStrings(s: seq<string>): (r: seq<string>)
    ensures Sorted(r)
    ensures multiset(r) == multiset(s)
    decreases |s|
  {
    if |s| == 0 then []
    else
      assert s == [s[0]] + s[1..];
      Insert(s[0], SortStrings(s[1..]))
  }
}

=== FILE: lifecycle.dfy ===
/**
 * The application driven by user actions and interval ticks: which actions
 * the rendered panels allow, the invariant every reachable state keeps,
 * and the bound on polling that the attempt counter enforces.
 */
module Lifecycle {
  import opened Wrappers
  import opened Js
  import opened Types
  import opened Constants
  import SettingsService
  import ThirdPartyService
  import opened App

  /** Something that happens to the application, with what the outside world answered. */
  datatype Event =
    | EditText(key: ContentKey, value: string)
    | GenerateText(step: TextStep, exchange: Result<string, string>)
    | GenerateImage(google: Result<string, string>, replies: seq<ThirdPartyService.SubmitReply>)
    | PollTick(reply: ThirdPartyService.PollReply, download: ThirdPartyService.Download)
    | SaveProject(fetched: Result<string, string>)
    | OpenProject(input: ProjectInput)
    | OpenSettingsPanel
    | SaveSettingsPanel(candidate: Settings)
    | ResetSettings(store: SettingsService.Store)
    | LoadSavedSettings(store: SettingsService.Store)

  /**
   * The state after `e` at time `now`. A generate button that is disabled
   * ignores its click. The settings events carry the store as it was when
   * they happened; `LoadSavedSettings` is the read made on mount.
   */
  function Step(st: AppState, now: int, e: Event): AppState {
    match e
    case EditText(key, value) => HandleUpdateContent(st, key, value, now)
    case GenerateText(step, exchange) =>
      if TextView(st, step).generateDisabled then st else HandleGenerate(st, step, now, exchange)
    case GenerateImage(google, replies) =>
      if ImageView(st).generateDisabled then st else HandleGenerateImage(st, now, google, replies)
    case PollTick(reply, download) => Tick(st, TickInput(now, reply, download))
    case SaveProject(fetched) => HandleSaveProject(st, now, fetched).state
    case OpenProject(input) => HandleLoadProject(st, now, input)
    case OpenSettingsPanel => st.(ui := st.ui.(isSettingsOpen := true))
    case SaveSettingsPanel(candidate) => ApplyPanelSettings(st, candidate)
    case ResetSettings(store) => HandleResetSettings(st, store, now).state
    case LoadSavedSettings(store) => LoadStoredSettings(st, store, now)
  }

  /**
   * The image lifecycle is either at rest (initial state, flag clear) or
   * polling a task with a non-empty id, the flag set and at most 100 polls
   * made.
   */
  predicate ImageLifecycleOk(st: AppState) {
    || (st.async == InitialAsyncState && !st.ui.isGenerating.image)
    || (PollingActive(st.async) && st.async.pollingAttempts <= MaxPollingAttempts && st.ui.isGenerating.image)
  }

  predicate Invariant(st: AppState) {
    ImageLifecycleOk(st) && ImageDataConsistent(st.character)
  }

  lemma InitialStateIsInvariant(loadTime: int)
    ensures Invariant(InitialAppState(loadTime))
  {
  }

  lemma GenerateImageKeepsInvariant(st: AppState, now: int, google: Result<string, string>, replies: seq<ThirdPartyService.SubmitReply>)
    requires Invariant(st)
    ensures Invariant(Step(st, now, GenerateImage(google, replies)))
  {
    if !ImageView(st).generateDisabled {
      assert !PollingActive(st.async);
    }
  }

  lemma TickKeepsInvariant(st: AppState, now: int, reply: ThirdPartyService.PollReply, download: ThirdPartyService.Download)
    requires Invariant(st)
    ensures Invariant(Step(st, now, PollTick(reply, download)))
  {
  }

  lemma OpenProjectKeepsInvariant(st: AppState, now: int, input: ProjectInput)
    requires Invariant(st)
    ensures Invariant(Step(st, now, OpenProject(input)))
  {
    if input.ProjectText? && input.doc.Some? && input.doc.value.characterData.Some? {
      LoadedImageIsConsistent(input.doc.value.characterData.value);
    }
  }

  lemma StepPreservesInvariant(st: AppState, now: int, e: Event)
    requires Invariant(st)
    ensures Invariant(Step(st, now, e))
  {
    match e
    case GenerateImage(google, replies) => GenerateImageKeepsInvariant(st, now, google, replies);
    case PollTick(reply, download) => TickKeepsInvariant(st, now, reply, download);
    case OpenProject(input) => OpenProjectKeepsInvariant(st, now, input);
    case _ =>
  }

  /** A run: the events in order, each with its time. */
  datatype Timed = Timed(now: int, event: Event)

  function Run(st: AppState, events: seq<Timed>): AppState
    decreases |events|
  {
    if |events| == 0 then st else Run(Step(st, events[0].now, events[0].event), events[1..])
  }

  /** Every state reachable from the start keeps the invariant. */
  lemma {:induction false} RunPreservesInvariant(st: AppState, events: seq<Timed>)
    requires Invariant(st)
    ensures Invariant(Run(st, events))
    decreases |events|
  {
    if |events| > 0 {
      StepPreservesInvariant(st, events[0].now, events[0].event);
      RunPreservesInvariant(Step(st, events[0].now, events[0].event), events[1..]);
    }
  }

  /** While a task is being polled, the image panel refuses a second submission. */
  lemma NoSecondSubmissionWhilePolling(st: AppState, now: int, google: Result<string, string>, replies: seq<ThirdPartyService.SubmitReply>)
    requires Invariant(st) && PollingActive(st.async)
    ensures Step(st, now, GenerateImage(google, replies)) == st
  {
  }

  /* ---------------------------------------------------------------------- */
  /* Polling is bounded                                                      */
  /* ---------------------------------------------------------------------- */

  /** The state after a run of ticks. */
  function RunTicks(st: AppState, ticks: seq<TickInput>): AppState
    decreases |ticks|
  {
    if |ticks| == 0 then st else RunTicks(Tick(st, ticks[0]), ticks[1..])
  }

  /** How many of those ticks sent a poll request. */
  function PollsSent(st: AppState, ticks: seq<TickInput>): nat
    decreases |ticks|
  {
    if |ticks| == 0 then 0
    else (if TickPolls(st.async) then 1 else 0) + PollsSent(Tick(st, ticks[0]), ticks[1..])
  }

  /** Polls still allowed from this state. */
  function PollBudget(st: AppState): nat {
    if PollingActive(st.async) && st.async.pollingAttempts <= MaxPollingAttempts
    then MaxPollingAttempts - st.async.pollingAttempts
    else 0
  }

  /** A tick keeps the lifecycle invariant, spends one unit of budget per poll and never adds any. */
  lemma TickSpendsBudget(st: AppState, t: TickInput)
    requires ImageLifecycleOk(st)
    ensures ImageLifecycleOk(Tick(st, t))
    ensures PollBudget(Tick(st, t)) + (if TickPolls(st.async) then 1 else 0) <= PollBudget(st)
    ensures PollingActive(Tick(st, t).async) ==>
      Tick(st, t).async.pollingAttempts == st.async.pollingAttempts + 1
  {
  }

  /**
   * Whatever the poll replies, a task is polled at most 100 times in all:
   * the number of requests a run of ticks sends is bounded by the budget
   * left when it starts.
   */
  lemma {:induction false} PollsAreBounded(st: AppState, ticks: seq<TickInput>)
    requires ImageLifecycleOk(st)
    ensures PollsSent(st, ticks) <= PollBudget(st)
    decreases |ticks|
  {
    if |ticks| > 0 {
      TickSpendsBudget(st, ticks[0]);
      PollsAreBounded(Tick(st, ticks[0]), ticks[1..]);
    }
  }

  /** A fresh task is polled at most `MaxPollingAttempts` times. */
  lemma FreshTaskPollsAtMostMax(st: AppState, ticks: seq<TickInput>)
    requires PollingActive(st.async) && st.async.pollingAttempts == 0 && st.ui.isGenerating.image
    ensures PollsSent(st, ticks) <= MaxPollingAttempts
  {
    PollsAreBounded(st, ticks);
  }

  /**
   * Polling ends: once more ticks have passed than the budget left, the
   * lifecycle is back at rest and the image panel idle.
   */
  lemma {:induction false} TicksEndPolling(st: AppState, ticks: seq<TickInput>)
    requires ImageLifecycleOk(st)
    requires |ticks| > PollBudget(st)
    ensures RunTicks(st, ticks).async == InitialAsyncState
    ensures !IsGeneratingImage(RunTicks(st, ticks))
    decreases |ticks|
  {
    var next := Tick(st, ticks[0]);
    TickSpendsBudget(st, ticks[0]);
    if PollingActive(st.async) {
      if PollingActive(next.async) {
        TicksEndPolling(next, ticks[1..]);
      } else {
        IdleStaysIdle(next, ticks[1..]);
      }
    } else {
      IdleStaysIdle(st, ticks);
    }
  }

  /** Ticks change nothing while the lifecycle is at rest. */
  lemma {:induction false} IdleStaysIdle(st: AppState, ticks: seq<TickInput>)
    requires st.async == InitialAsyncState && !st.ui.isGenerating.image
    ensures RunTicks(st, ticks) == st
    decreases |ticks|
  {
    if |ticks| > 0 {
      IdleStaysIdle(Tick(st, ticks[0]), ticks[1..]);
    }
  }
}

=== FILE: settings_service.dfy ===
/**
 * Persistence, export/import and validation of the user settings. The
 * browser's `localStorage` is an abstract map from keys to parsed JSON
 * entries; `JSON.stringify`/`JSON.parse` are replaced by the record they
 * produce.
 */
module SettingsService {
  import opened Wrappers
  import opened Js
  import opened Types

  const SettingsStorageKey: string := "character-crafter-settings"
  const SettingsVersion: string := "1.0.0"
  const ExportAppName: string := "Character Crafter AI"
  const ImportFailure: string := "Failed to import settings: Invalid format or corrupted data"

  /**
   * A settings document as parsed from JSON; every member may be absent.
   * `timestamp` is the document's time member: `lastSaved` in the stored
   * document, `exportedAt` in an exported one.
   */
  datatype SettingsDocument = SettingsDocument(
    version: Option<string>,
    settings: Option<SettingsPatch>,
    timestamp: Option<int>,
    appName: Option<string>)

  /** One `localStorage` value: text that is not JSON, or a parsed document. */
  datatype StoreEntry = Unparseable | Parsed(doc: SettingsDocument)

  type Store = map<string, StoreEntry>

  /** `localStorage.getItem(SETTINGS_STORAGE_KEY) !== null`. */
  predicate HasStoredSettings(store: Store) {
    SettingsStorageKey in store
  }

  /** Writes `{version, settings, lastSaved: now}` under the settings key. */
  function SaveSettings(store: Store, s: Settings, now: int): (r: Store)
    ensures HasStoredSettings(r)
    ensures forall k :: k != SettingsStorageKey ==> (k in r <==> k in store)
    ensures forall k :: k != SettingsStorageKey && k in store ==> r[k] == store[k]
  {
    store[SettingsStorageKey := Parsed(SettingsDocument(Some(SettingsVersion), Some(AsPatch(s)), Some(now), None))]
  }

  /**
   * The stored settings object, or `None` when nothing is stored, the text is
   * not JSON, the version differs or the `settings` member is not an object.
   */
  function LoadSettings(store: Store): (r: Option<SettingsPatch>)
    ensures r.Some? ==> HasStoredSettings(store)
    ensures r.Some? ==> store[SettingsStorageKey].Parsed? && store[SettingsStorageKey].doc.version == Some(SettingsVersion)
    ensures r.Some? ==> Some(r.value) == store[SettingsStorageKey].doc.settings
    ensures (&& HasStoredSettings(store) && store[SettingsStorageKey].Parsed?
             && store[SettingsStorageKey].doc.version == Some(SettingsVersion)
             && store[SettingsStorageKey].doc.settings.Some?) ==> r.Some?
  {
    if SettingsStorageKey !in store then None
    else
      match store[SettingsStorageKey]
      case Unparseable => None
      case Parsed(doc) =>
        if doc.version != Some(SettingsVersion) then None
        else if doc.settings.None? then None
        else doc.settings
  }

  /** Removes the settings key and nothing else. */
  function ClearSettings(store: Store): (r: Store)
    ensures !HasStoredSettings(r)
    ensures forall k :: k != SettingsStorageKey ==> (k in r <==> k in store)
    ensures forall k :: k != SettingsStorageKey && k in store ==> r[k] == store[k]
  {
    store - {SettingsStorageKey}
  }

  /** `lastSaved` of the stored document, if it can be read. */
  function GetSettingsLastSaved(store: Store): (r: Option<int>)
    ensures r.Some? ==> HasStoredSettings(store)
  {
    if SettingsStorageKey !in store then None
    else
      match store[SettingsStorageKey]
      case Unparseable => None
      case Parsed(doc) => doc.timestamp
  }

  /** Saving and then loading yields the saved settings; the save time is recorded. */
  lemma SaveThenLoad(store: Store, s: Settings, now: int)
    ensures LoadSettings(SaveSettings(store, s, now)) == Some(AsPatch(s))
    ensures GetSettingsLastSaved(SaveSettings(store, s, now)) == Some(now)
  {
  }

  /** After clearing, nothing is stored and nothing loads. */
  lemma ClearThenLoad(store: Store)
    ensures !HasStoredSettings(ClearSettings(store))
    ensures LoadSettings(ClearSettings(store)) == None
    ensures GetSettingsLastSaved(ClearSettings(store)) == None
  {
  }

  /** The export document: version, settings, export time and application name. */
  function ExportSettings(s: Settings, now: int): (r: SettingsDocument)
    ensures r.settings == Some(AsPatch(s))
    ensures r.version == Some(SettingsVersion)
  {
    SettingsDocument(Some(SettingsVersion), Some(AsPatch(s)), Some(now), Some(ExportAppName))
  }

  /** The keys the importer insists on, in the order it checks them. */
  const RequiredFields: seq<SettingsKey> := [
    LlmApiProvider, LlmModel, LlmApiUrl, LlmApiKey,
    ImageApiProvider, ImageModel, ImageApiUrl, ImageApiKey,
    ImageAspectRatio, ProfilePrompt, CardPrompt, PromptPrompt,
    BflSettings]

  /** The first of `fields` missing from `p`, as the import loop finds it. */
  function FirstMissing(p: SettingsPatch, fields: seq<SettingsKey>): (r: Option<SettingsKey>)
    ensures r.None? <==> forall i :: 0 <= i < |fields| ==> HasKey(p, fields[i])
    ensures r.Some? ==> r.value in fields && !HasKey(p, r.value)
    decreases |fields|
  {
    if |fields| == 0 then None
    else if !HasKey(p, fields[0]) then Some(fields[0])
    else
      var r := FirstMissing(p, fields[1..]);
      assert forall i :: 1 <= i < |fields| ==> fields[i] == fields[1..][i - 1];
      r
  }

  /** The required list names every key of `Settings`. */
  lemma RequiredFieldsAreAllKeys(p: SettingsPatch)
    ensures FirstMissing(p, RequiredFields).None? <==> HasAllKeys(p)
  {
    if HasAllKeys(p) {
      forall i | 0 <= i < |RequiredFields|
        ensures HasKey(p, RequiredFields[i])
      {
      }
    }
  }

  /**
   * Parses an exported document: it must have an object `settings` member
   * holding every required key, which is returned as it is. Every failure
   * surfaces the same message.
   */
  function ImportSettings(doc: Option<SettingsDocument>): (r: Result<Settings, string>)
    ensures r.Ok? <==> doc.Some? && doc.value.settings.Some? && HasAllKeys(doc.value.settings.value)
    ensures r.Ok? ==> Some(AsPatch(r.value)) == doc.value.settings
    ensures r.Err? ==> r.error == ImportFailure
  {
    if doc.None? || doc.value.settings.None? then Err(ImportFailure)
    else
      var p := doc.value.settings.value;
      RequiredFieldsAreAllKeys(p);
      if FirstMissing(p, RequiredFields).Some? then Err(ImportFailure)
      else Ok(FromPatch(p))
  }

  /** Exporting and importing the result gives back the same settings. */
  lemma ExportImportRoundTrip(s: Settings, now: int)
    ensures ImportSettings(Some(ExportSettings(s, now))) == Ok(s)
  {
    var p := AsPatch(s);
    assert FromPatch(p) == s;
  }

  /* ---------------------------------------------------------------------- */
  /* Validation                                                              */
  /* ---------------------------------------------------------------------- */

  datatype ValidationResult = ValidationResult(isValid: bool, errors: seq<string>)

  /** The rules the validator enforces, one per message it can report. */
  datatype Issue =
    | InvalidLlmProvider | InvalidImageProvider
    | MissingLlmUrl | MissingLlmKey | MissingImageKey
    | InvalidAspectRatio
    | InvalidBflModel | UpsamplingNotBoolean | ToleranceOutOfRange
    | MissingBflSettings

  const RequiredForThirdParty := " is required for third-party provider"

  function Message(i: Issue): string {
    match i
    case InvalidLlmProvider => "Invalid LLM API provider"
    case InvalidImageProvider => "Invalid Image API provider"
    case MissingLlmUrl => "LLM API URL" + RequiredForThirdParty
    case MissingLlmKey => "LLM API Key" + RequiredForThirdParty
    case MissingImageKey => "BFL API Key" + RequiredForThirdParty
    case InvalidAspectRatio => "Invalid aspect ratio"
    case InvalidBflModel => "Invalid BFL model"
    case UpsamplingNotBoolean => "BFL prompt upsampling must be a boolean"
    case ToleranceOutOfRange => "BFL safety tolerance must be a number between 1 and 6"
    case MissingBflSettings => "BFL settings are required"
  }

  /**
   * When each rule is broken, stated against the declared unions of the
   * settings type rather than the validator's own lists.
   */
  predicate Violates(s: Settings, i: Issue) {
    match i
    case InvalidLlmProvider => s.llmApiProvider !in ApiProviders
    case InvalidImageProvider => s.imageApiProvider !in ApiProviders
    case MissingLlmUrl => s.llmApiProvider == "third-party" && Blank(s.llmApiUrl)
    case MissingLlmKey => s.llmApiProvider == "third-party" && Blank(s.llmApiKey)
    case MissingImageKey => s.imageApiProvider == "third-party" && Blank(s.imageApiKey)
    case InvalidAspectRatio => s.imageAspectRatio !in AspectRatios
    case InvalidBflModel =>
      s.bflSettings.Bfl? && !(s.bflSettings.model.Str? && s.bflSettings.model.s in BflModelNames)
    case UpsamplingNotBoolean => s.bflSettings.Bfl? && !s.bflSettings.promptUpsampling.Bool?
    case ToleranceOutOfRange =>
      s.bflSettings.Bfl? &&
      !(s.bflSettings.safetyTolerance.Num? && 1.0 <= s.bflSettings.safetyTolerance.n <= 6.0)
    case MissingBflSettings => s.bflSettings.NoBfl?
  }

  /** The validator's checks in the order it performs them. */
  const CheckOrder: seq<Issue> := [
    InvalidLlmProvider, InvalidImageProvider,
    MissingLlmUrl, MissingLlmKey, MissingImageKey,
    InvalidAspectRatio,
    InvalidBflModel, UpsamplingNotBoolean, ToleranceOutOfRange,
    MissingBflSettings]

  /** The position of each rule in `CheckOrder`. */
  function Rank(i: Issue): nat {
    match i
    case InvalidLlmProvider => 0
    case InvalidImageProvider => 1
    case MissingLlmUrl => 2
    case MissingLlmKey => 3
    case MissingImageKey => 4
    case InvalidAspectRatio => 5
    case InvalidBflModel => 6
    case UpsamplingNotBoolean => 7
    case ToleranceOutOfRange => 8
    case MissingBflSettings => 9
  }

  /** No rule is checked twice. */
  lemma CheckOrderDistinct()
    ensures forall a, b :: 0 <= a < b < |CheckOrder| ==> CheckOrder[a] != CheckOrder[b]
  {
    assert forall k :: 0 <= k < |CheckOrder| ==> Rank(CheckOrder[k]) == k;
  }

  /** `['google', 'third-party'].includes(p)`. */
  predicate KnownProvider(p: string) {
    p in ["google", "third-party"]
  }

  /** `validAspectRatios.includes(r)`. */
  predicate KnownAspectRatio(r: string) {
    r in ["1:1", "16:9", "9:16", "4:3", "3:4"]
  }

  /** `validBFLModels.includes(m)`; a non-string is never included. */
  predicate KnownBflModel(m: Value) {
    m.Str? && m.s in ["flux-pro-1.1-ultra", "flux-pro-1.1", "flux-pro", "flux-dev"]
  }

  /**
   * The condition under which the validator pushes the message of rule `i`,
   * written as the source tests it (membership in its literal lists, `trim`,
   * `typeof`, `<`/`>`). The BFL rules sit inside `if (settings.bflSettings)`
   * and `MissingBflSettings` is its `else` branch.
   */
  predicate Fails(s: Settings, i: Issue) {
    match i
    case InvalidLlmProvider => !KnownProvider(s.llmApiProvider)
    case InvalidImageProvider => !KnownProvider(s.imageApiProvider)
    case MissingLlmUrl => s.llmApiProvider == "third-party" && Trim(s.llmApiUrl) == ""
    case MissingLlmKey => s.llmApiProvider == "third-party" && Trim(s.llmApiKey) == ""
    case MissingImageKey => s.imageApiProvider == "third-party" && Trim(s.imageApiKey) == ""
    case InvalidAspectRatio => !KnownAspectRatio(s.imageAspectRatio)
    case InvalidBflModel => s.bflSettings.Bfl? && !KnownBflModel(s.bflSettings.model)
    case UpsamplingNotBoolean => s.bflSettings.Bfl? && !s.bflSettings.promptUpsampling.Bool?
    case ToleranceOutOfRange =>
      && s.bflSettings.Bfl?
      && var t := s.bflSettings.safetyTolerance;
         !t.Num? || t.n < 1.0 || t.n > 6.0
    case MissingBflSettings => !s.bflSettings.Bfl?
  }

  /** The source's checks agree with the rules as stated over the declared unions. */
  lemma FailsIffViolates(s: Settings, i: Issue)
    ensures Fails(s, i) <==> Violates(s, i)
  {
    TrimEmptyIffBlank(s.llmApiUrl);
    TrimEmptyIffBlank(s.llmApiKey);
    TrimEmptyIffBlank(s.imageApiKey);
  }

  /** Length, first and ninth character tell the ten messages apart. */
  function MessageSignature(i: Issue): (int, char, char) {
    var m := Message(i);
    (|m|, m[0], m[8])
  }

  /** Recovers the rule from its message's signature. */
  function IssueOfSignature(sig: (int, char, char)): Option<Issue> {
    match sig
    case (24, _, _) => Some(InvalidLlmProvider)
    case (26, _, _) => Some(InvalidImageProvider)
    case (48, 'L', 'U') => Some(MissingLlmUrl)
    case (48, 'L', 'K') => Some(MissingLlmKey)
    case (48, 'B', _) => Some(MissingImageKey)
    case (20, _, _) => Some(InvalidAspectRatio)
    case (17, _, _) => Some(InvalidBflModel)
    case (39, _, _) => Some(UpsamplingNotBoolean)
    case (53, _, _) => Some(ToleranceOutOfRange)
    case (25, _, _) => Some(MissingBflSettings)
    case _ => None
  }

  lemma SignatureIdentifiesIssue(i: Issue)
    ensures IssueOfSignature(MessageSignature(i)) == Some(i)
  {
    match i
    case InvalidLlmProvider => assert MessageSignature(i).0 == 24;
    case InvalidImageProvider => assert MessageSignature(i).0 == 26;
    case MissingLlmUrl => assert MessageSignature(i) == (48, 'L', 'U');
    case MissingLlmKey => assert MessageSignature(i) == (48, 'L', 'K');
    case MissingImageKey => assert MessageSignature(i) == (48, 'B', 'K');
    case InvalidAspectRatio => assert MessageSignature(i).0 == 20;
    case InvalidBflModel => assert MessageSignature(i).0 == 17;
    case UpsamplingNotBoolean => assert MessageSignature(i).0 == 39;
    case ToleranceOutOfRange => assert MessageSignature(i).0 == 53;
    case MissingBflSettings => assert MessageSignature(i).0 == 25;
  }

  lemma MessageInjective(i: Issue, j: Issue)
    requires Message(i) == Message(j)
    ensures i == j
  {
    SignatureIdentifiesIssue(i);
    SignatureIdentifiesIssue(j);
  }

  lemma CheckOrderComplete(i: Issue)
    ensures i in CheckOrder
  {
  }

  /** Pushes the message of every failing check of `checks`, in order. */
  function Collect(s: Settings, checks: seq<Issue>): (r: seq<string>)
    ensures forall m :: m in r ==> exists j :: 0 <= j < |checks| && Fails(s, checks[j]) && m == Message(checks[j])
    ensures forall j :: 0 <= j < |checks| && Fails(s, checks[j]) ==> Message(checks[j]) in r
    decreases |checks|
  {
    if |checks| == 0 then []
    else
      var rest := Collect(s, checks[1..]);
      assert forall j :: 1 <= j < |checks| ==> checks[j] == checks[1..][j - 1];
      if Fails(s, checks[0]) then [Message(checks[0])] + rest else rest
  }

  predicate Distinct(xs: seq<string>) {
    forall a, b :: 0 <= a < b < |xs| ==> xs[a] != xs[b]
  }

  /** The first check's message is not pushed again by the remaining, different checks. */
  lemma HeadMessageIsNew(s: Settings, checks: seq<Issue>)
    requires |checks| > 0
    requires forall j :: 1 <= j < |checks| ==> checks[j] != checks[0]
    ensures Message(checks[0]) !in Collect(s, checks[1..])
  {
    var tail := checks[1..];
    if Message(checks[0]) in Collect(s, tail) {
      var j :| 0 <= j < |tail| && Fails(s, tail[j]) && Message(checks[0]) == Message(tail[j]);
      assert tail[j] == checks[j + 1];
      MessageInjective(checks[0], tail[j]);
    }
  }

  /** Distinct checks push distinct messages. */
  lemma {:induction false} CollectDistinct(s: Settings, checks: seq<Issue>)
    requires forall a, b :: 0 <= a < b < |checks| ==> checks[a] != checks[b]
    ensures Distinct(Collect(s, checks))
    decreases |checks|
  {
    if |checks| > 0 {
      var tail := checks[1..];
      forall a, b | 0 <= a < b < |tail|
        ensures tail[a] != tail[b]
      {
        assert tail[a] == checks[a + 1] && tail[b] == checks[b + 1];
      }
      CollectDistinct(s, tail);
      var rest := Collect(s, tail);
      if Fails(s, checks[0]) {
        HeadMessageIsNew(s, checks);
        var r := [Message(checks[0])] + rest;
        assert Collect(s, checks) == r;
        forall a, b | 0 <= a < b < |r|
          ensures r[a] != r[b]
        {
          assert r[b] == rest[b - 1];
          if a > 0 {
            assert r[a] == rest[a - 1];
          }
        }
      } else {
        assert Collect(s, checks) == rest;
      }
    }
  }

  /** A rule's message is among the collected ones exactly when the rule is broken. */
  lemma CollectedIffViolated(s: Settings, i: Issue)
    ensures Message(i) in Collect(s, CheckOrder) <==> Violates(s, i)
  {
    var errors := Collect(s, CheckOrder);
    FailsIffViolates(s, i);
    CheckOrderComplete(i);
    var k :| 0 <= k < |CheckOrder| && CheckOrder[k] == i;
    if Message(i) in errors {
      var j :| 0 <= j < |CheckOrder| && Fails(s, CheckOrder[j]) && Message(i) == Message(CheckOrder[j]);
      MessageInjective(i, CheckOrder[j]);
    }
  }

  /** Every collected message belongs to a broken rule. */
  lemma CollectedAreViolations(s: Settings, m: string)
    requires m in Collect(s, CheckOrder)
    ensures exists i :: Violates(s, i) && m == Message(i)
  {
    var j :| 0 <= j < |CheckOrder| && Fails(s, CheckOrder[j]) && m == Message(CheckOrder[j]);
    FailsIffViolates(s, CheckOrder[j]);
  }

  /**
   * Runs every check and accumulates one message per broken rule. The
   * contract states which messages appear, not their order. Valid exactly
   * when no message was pushed.
   */
  function ValidateSettings(s: Settings): (r: ValidationResult)
    ensures r.isValid <==> |r.errors| == 0
    ensures forall i :: Message(i) in r.errors <==> Violates(s, i)
  {
    var errors := Collect(s, CheckOrder);
    forall i
      ensures Message(i) in errors <==> Violates(s, i)
    {
      CollectedIffViolated(s, i);
    }
    ValidationResult(|errors| == 0, errors)
  }

  /** Every reported message belongs to a broken rule. */
  lemma ValidationReportsOnlyViolations(s: Settings)
    ensures forall m :: m in ValidateSettings(s).errors ==> exists i :: Violates(s, i) && m == Message(i)
  {
    forall m | m in ValidateSettings(s).errors
      ensures exists i :: Violates(s, i) && m == Message(i)
    {
      CollectedAreViolations(s, m);
    }
  }

  /** No message is reported twice. */
  lemma ValidationReportsEachOnce(s: Settings)
    ensures Distinct(ValidateSettings(s).errors)
  {
    CheckOrderDistinct();
    CollectDistinct(s, CheckOrder);
  }

  /** The settings are valid exactly when no rule is broken. */
  lemma ValidIffNoViolation(s: Settings)
    ensures ValidateSettings(s).isValid <==> forall i :: !Violates(s, i)
  {
    var r := ValidateSettings(s);
    if !r.isValid {
      var m := r.errors[0];
      assert m in r.errors;
      ValidationReportsOnlyViolations(s);
    } else {
      forall i
        ensures !Violates(s, i)
      {
        assert Message(i) !in r.errors;
      }
    }
  }

  /** Settings that break no rule carry a BFL object whose three members have the declared types. */
  lemma ConformingBflIsWellTyped(s: Settings)
    requires forall i :: !Violates(s, i)
    ensures s.bflSettings.Bfl?
    ensures s.bflSettings.model.Str? && s.bflSettings.model.s in BflModelNames
    ensures s.bflSettings.promptUpsampling.Bool?
    ensures s.bflSettings.safetyTolerance.Num? && 1.0 <= s.bflSettings.safetyTolerance.n <= 6.0
  {
    assert !Violates(s, MissingBflSettings);
    assert !Violates(s, InvalidBflModel);
    assert !Violates(s, UpsamplingNotBoolean);
    assert !Violates(s, ToleranceOutOfRange);
  }
}

=== FILE: steps.dfy ===
/**
 * The decisions the pipeline's step panels make from their props: whether
 * the panel is marked "Out of sync", whether its generate button is
 * disabled, the button's label and, for the image panel, the download guard
 * and what the preview area shows.
 */

/**
 * The three text panels (`ProfileStep`, `CardStep`, `PromptStep`) render the
 * same decisions from the text they are fed (`upstream`) and the text they
 * hold (`own`); they differ only in the noun on the button.
 */
module StepView {
  import opened Js
  import opened Types

  datatype TextStepView = TextStepView(isDirty: bool, generateDisabled: bool, buttonLabel: string)

  const Regenerate := "Regenerate "
  const Generate := "Generate "

  /**
   * A text panel: out of sync once its input changed after the last
   * generation (never before the first), disabled while busy or without
   * input, offering to regenerate once it holds text.
   */
  function TextPanel(upstream: Content, own: Content, isGenerating: bool, noun: string): (v: TextStepView)
    ensures own.lastGenerated == 0 ==> !v.isDirty
    ensures v.isDirty <==> upstream.lastModified > own.lastGenerated && own.lastGenerated != 0
    ensures v.generateDisabled <==> isGenerating || upstream.value == ""
    ensures StartsWith(v.buttonLabel, Regenerate) <==> own.value != ""
    ensures StartsWith(v.buttonLabel, Generate) <==> own.value == ""
    ensures EndsWith(v.buttonLabel, noun)
    ensures |v.buttonLabel| == (if own.value != "" then |Regenerate| else |Generate|) + |noun|
  {
    var verb := if own.value != "" then Regenerate else Generate;
    var l := verb + noun;
    assert l[..|verb|] == verb && l[|l| - |noun|..] == noun;
    assert l[0] == verb[0];
    TextStepView(
      upstream.lastModified > own.lastGenerated && own.lastGenerated != 0,
      isGenerating || upstream.value == "",
      l)
  }

  /**
   * A label that starts with the verb, ends with the noun and is exactly as
   * long as both is the verb followed by the noun: `TextPanel`'s label
   * clauses leave no other label.
   */
  lemma {:induction false} LabelIsVerbAndNoun(text: string, verb: string, noun: string)
    requires StartsWith(text, verb) && EndsWith(text, noun) && |text| == |verb| + |noun|
    ensures text == verb + noun
  {
    var want := verb + noun;
    forall i | 0 <= i < |text|
      ensures text[i] == want[i]
    {
      if i < |verb| {
        assert text[..|verb|][i] == verb[i];
      } else {
        assert text[|text| - |noun|..][i - |verb|] == noun[i - |verb|];
      }
    }
  }
}

module ImageStep {
  import opened Wrappers
  import opened Types

  /** The preview area: spinner with status text, the image, or a placeholder. */
  datatype Display = Spinner(statusText: string) | Picture(url: string) | Placeholder

  datatype ImageStepView = ImageStepView(
    isDirty: bool,
    downloadEnabled: bool,
    generateDisabled: bool,
    buttonLabel: string,
    display: Display)

  /**
   * The image panel. Unlike the text panels it compares the prompt's own
   * edit and generation times, and is only dirty once an image exists.
   */
  function View(imagePrompt: Content, imageUrl: Option<string>, isGenerating: bool, statusText: string): (v: ImageStepView)
    ensures v.isDirty <==> imagePrompt.lastModified > imagePrompt.lastGenerated && TruthyText(imageUrl)
    ensures v.downloadEnabled <==> TruthyText(imageUrl)
    ensures v.generateDisabled <==> isGenerating || imagePrompt.value == ""
    ensures v.buttonLabel == "Regenerate Image" <==> TruthyText(imageUrl)
    ensures v.buttonLabel == "Generate Image" <==> !TruthyText(imageUrl)
    ensures isGenerating ==> v.display == Spinner(statusText)
    ensures !isGenerating && TruthyText(imageUrl) ==> v.display == Picture(imageUrl.value)
    ensures !isGenerating && !TruthyText(imageUrl) ==> v.display == Placeholder
  {
    var hasImage := imageUrl.Some? && imageUrl.value != "";
    ImageStepView(
      imagePrompt.lastModified > imagePrompt.lastGenerated && hasImage,
      hasImage,
      isGenerating || imagePrompt.value == "",
      (if hasImage then "Regenerate" else "Generate") + " Image",
      if isGenerating then Spinner(statusText)
      else if hasImage then Picture(imageUrl.value)
      else Placeholder)
  }
}

=== FILE: third_party_service.dfy ===
/**
 * The third-party service layer: the OpenAI-compatible model listing and
 * text-generation guard, and the Black Forest Labs (BFL) image flow —
 * request shaping per model tier, submission with bounded retry, and the
 * poll that turns a ready result into an inline data URL.
 *
 * Every network exchange is an input: a reply value stands for what the
 * `fetch` produced, so the functions are total and deterministic.
 */
module ThirdPartyService {
  import opened Wrappers
  import opened Js
  import opened Types

  /** `response.ok`: a status in 200..299. */
  predicate HttpOk(status: nat) {
    200 <= status <= 299
  }

  // ---------------------------------------------------------------------
  // OpenAI-compatible endpoints
  // ---------------------------------------------------------------------

  const TextConfigError := "Third-party API URL or API Key is not configured."

  /**
   * `generateTextOpenAI`: the configuration guard runs before any request;
   * past it, the outcome is whatever the chat-completions exchange produced.
   */
  function GenerateTextOpenAI(apiUrl: string, apiKey: string, exchange: Result<string, string>): (r: Result<string, string>)
    ensures apiUrl == "" || apiKey == "" ==> r == Err(TextConfigError)
    ensures apiUrl != "" && apiKey != "" ==> r == exchange
  {
    if apiUrl == "" || apiKey == "" then Err(TextConfigError) else exchange
  }

  /** An error body: `{ error: { message } }`, `{ message }`, or neither. */
  datatype ErrorBody = ErrorBody(nestedMessage: Option<string>, message: Option<string>)

  /** A successful body: a `data` array of model ids, or anything else. */
  datatype ModelsBody = ModelIds(ids: seq<string>) | NotAList

  datatype ModelsReply =
    | ModelsNetworkFailure(reason: string)
      /** `errorBody` is `None` when the body is not JSON (the status text is used). */
    | ModelsRejected(status: nat, statusText: string, errorBody: Option<ErrorBody>)
    | ModelsListed(body: Result<ModelsBody, string>)

  const ModelsConfigError := "API URL and API Key are required."
  const ModelsAuthError := "Authentication failed. Check your API Key."
  const ModelsErrorPrefix := "Failed to fetch models: "

  /** `errorData.error?.message || errorData.message` rendered into a template. */
  function ErrorText(statusText: string, body: Option<ErrorBody>): string {
    match body
    case None => statusText
    case Some(b) =>
      if TruthyText(b.nestedMessage) then b.nestedMessage.value
      else if b.message.Some? then b.message.value
      else "undefined"
  }

  /**
   * `fetchModelsOpenAI`: the configured endpoint's model ids, sorted; a
   * rejected key has its own message.
   */
  function FetchModelsOpenAI(apiUrl: string, apiKey: string, reply: ModelsReply): (r: Result<seq<string>, string>)
    ensures apiUrl == "" || apiKey == "" ==> r == Err(ModelsConfigError)
    ensures r.Ok? ==> Sorted(r.value)
    ensures r.Ok? <==> apiUrl != "" && apiKey != "" && reply.ModelsListed? && reply.body.Ok?
    ensures r.Ok? && reply.body.value.ModelIds? ==> multiset(r.value) == multiset(reply.body.value.ids)
    ensures r.Ok? && reply.body.value.NotAList? ==> r.value == []
    ensures apiUrl != "" && apiKey != "" && reply.ModelsRejected? ==>
      r == Err(if reply.status == 401 then ModelsAuthError
               else ModelsErrorPrefix + ErrorText(reply.statusText, reply.errorBody))
  {
    if apiUrl == "" || apiKey == "" then Err(ModelsConfigError)
    else match reply
      case ModelsNetworkFailure(reason) => Err(reason)
      case ModelsRejected(status, statusText, body) =>
        if status == 401 then Err(ModelsAuthError)
        else Err(ModelsErrorPrefix + ErrorText(statusText, body))
      case ModelsListed(body) =>
        match body
        case Err(reason) => Err(reason)
        case Ok(ModelIds(ids)) => Ok(SortStrings(ids))
        case Ok(NotAList) => Ok([])
  }

  // ---------------------------------------------------------------------
  // Aspect ratios
  // ---------------------------------------------------------------------

  datatype Dimensions = Dimensions(width: int, height: int)

  /** Index of the first ':' in `s`, or `|s|` when there is none. */
  function ColonAt(s: string): (i: nat)
    ensures i <= |s|
    ensures forall j :: 0 <= j < i ==> s[j] != ':'
    ensures i < |s| ==> s[i] == ':'
  {
    if |s| == 0 then 0
    else if s[0] == ':' then 0
    else 1 + ColonAt(s[1..])
  }

  /** Every character of `s` is a decimal digit and there is at least one. */
  predicate Digits(s: string) {
    |s| > 0 && forall i :: 0 <= i < |s| ==> '0' <= s[i] <= '9'
  }

  /** A ratio name `W:H` with two decimal parts. */
  predicate WellFormedRatio(name: string) {
    var c := ColonAt(name);
    c < |name| && Digits(name[..c]) && Digits(name[c + 1..]) && DecimalValue(name[c + 1..]) > 0
  }

  /** `W` of a ratio name `W:H`. */
  function RatioWidth(name: string): nat
    requires WellFormedRatio(name)
  {
    DecimalValue(name[..ColonAt(name)])
  }

  /** `H` of a ratio name `W:H`. */
  function RatioHeight(name: string): (h: nat)
    requires WellFormedRatio(name)
    ensures h > 0
  {
    DecimalValue(name[ColonAt(name) + 1..])
  }

  /** A name whose first colon is at `c`, with the digits of `w` before it and of `h > 0` after it. */
  lemma ParseRatio(name: string, c: nat, w: nat, h: nat)
    requires c < |name| && name[c] == ':' && forall j :: 0 <= j < c ==> name[j] != ':'
    requires Digits(name[..c]) && Digits(name[c + 1..])
    requires DecimalValue(name[..c]) == w && DecimalValue(name[c + 1..]) == h && h > 0
    ensures WellFormedRatio(name) && RatioWidth(name) == w && RatioHeight(name) == h
  {
    var i := ColonAt(name);
    if i != c {
      assert false;
    }
  }

  lemma SquareParses()
    ensures WellFormedRatio("1:1") && RatioWidth("1:1") == 1 && RatioHeight("1:1") == 1
  {
    var n := "1:1";
    assert n[..1] == "1" && n[2..] == "1";
    ParseRatio(n, 1, 1, 1);
  }

  lemma WideParses()
    ensures WellFormedRatio("16:9") && RatioWidth("16:9") == 16 && RatioHeight("16:9") == 9
  {
    var n := "16:9";
    assert n[..2] == "16" && n[3..] == "9";
    assert DecimalValue("16") == 16 by { assert "16"[..1] == "1"; }
    ParseRatio(n, 2, 16, 9);
  }

  lemma TallParses()
    ensures WellFormedRatio("9:16") && RatioWidth("9:16") == 9 && RatioHeight("9:16") == 16
  {
    var n := "9:16";
    assert n[..1] == "9" && n[2..] == "16";
    assert DecimalValue("16") == 16 by { assert "16"[..1] == "1"; }
    ParseRatio(n, 1, 9, 16);
  }

  lemma LandscapeParses()
    ensures WellFormedRatio("4:3") && RatioWidth("4:3") == 4 && RatioHeight("4:3") == 3
  {
    var n := "4:3";
    assert n[..1] == "4" && n[2..] == "3";
    ParseRatio(n, 1, 4, 3);
  }

  lemma PortraitParses()
    ensures WellFormedRatio("3:4") && RatioWidth("3:4") == 3 && RatioHeight("3:4") == 4
  {
    var n := "3:4";
    assert n[..1] == "3" && n[2..] == "4";
    ParseRatio(n, 1, 3, 4);
  }

  /** The five names of the aspect-ratio union, read as numbers. */
  lemma RatioNamesParse()
    ensures WellFormedRatio("1:1") && WellFormedRatio("16:9") && WellFormedRatio("9:16")
    ensures WellFormedRatio("4:3") && WellFormedRatio("3:4")
    ensures RatioWidth("1:1") == 1 && RatioHeight("1:1") == 1
    ensures RatioWidth("16:9") == 16 && RatioHeight("16:9") == 9
    ensures RatioWidth("9:16") == 9 && RatioHeight("9:16") == 16
    ensures RatioWidth("4:3") == 4 && RatioHeight("4:3") == 3
    ensures RatioWidth("3:4") == 3 && RatioHeight("3:4") == 4
  {
    SquareParses();
    WideParses();
    TallParses();
    LandscapeParses();
    PortraitParses();
  }

  /** `mapAspectRatioToBFL`: pixel dimensions for a ratio, square for anything else. */
  function MapAspectRatioToBfl(ratio: string): (d: Dimensions)
    ensures d.width > 0 && d.height > 0
    ensures ratio !in AspectRatios ==> d == Dimensions(1024, 1024)
  {
    match ratio
    case "1:1" => Dimensions(1024, 1024)
    case "16:9" => Dimensions(1440, 810)
    case "9:16" => Dimensions(810, 1440)
    case "4:3" => Dimensions(1024, 768)
    case "3:4" => Dimensions(768, 1024)
    case _ => Dimensions(1024, 1024)
  }

  /** The mapped dimensions have exactly the proportion the ratio's name spells. */
  lemma MappedDimensionsHaveNamedProportion(ratio: string)
    requires ratio in AspectRatios
    ensures WellFormedRatio(ratio)
    ensures var d := MapAspectRatioToBfl(ratio);
      d.width * RatioHeight(ratio) == d.height * RatioWidth(ratio)
  {
    match ratio
    case "1:1" => SquareParses();
    case "16:9" => WideParses();
    case "9:16" => TallParses();
    case "4:3" => LandscapeParses();
    case "3:4" => PortraitParses();
  }

  function AbsReal(x: real): real {
    if x < 0.0 then -x else x
  }

  /** The quotient a ratio name spells (`W / H`); 0 for a name that is not `W:H`. */
  function RatioValue(name: string): real {
    if WellFormedRatio(name) then RatioWidth(name) as real / RatioHeight(name) as real else 0.0
  }

  lemma RatioValues()
    ensures RatioValue("1:1") == 1.0
    ensures RatioValue("16:9") == 16.0 / 9.0
    ensures RatioValue("9:16") == 9.0 / 16.0
    ensures RatioValue("4:3") == 4.0 / 3.0
    ensures RatioValue("3:4") == 3.0 / 4.0
  {
    SquareParses();
    WideParses();
    TallParses();
    LandscapeParses();
    PortraitParses();
  }

  /** A quotient lies within 0.1 of the ratio `name` spells. */
  predicate Near(q: real, name: string) {
    AbsReal(q - RatioValue(name)) < 0.1
  }

  /** The first of `names` near the quotient `q`, or "1:1". */
  function FirstNear(q: real, names: seq<string>): string {
    if |names| == 0 then "1:1"
    else if Near(q, names[0]) then names[0]
    else FirstNear(q, names[1..])
  }

  /** `FirstNear` over five names, unrolled into the order they are listed. */
  lemma FirstNearOfFive(q: real, a: string, b: string, c: string, d: string, e: string)
    ensures FirstNear(q, [a, b, c, d, e]) ==
      if Near(q, a) then a
      else if Near(q, b) then b
      else if Near(q, c) then c
      else if Near(q, d) then d
      else if Near(q, e) then e
      else "1:1"
  {
    var u1, u2, u3, u4, u5 := [a, b, c, d, e], [b, c, d, e], [c, d, e], [d, e], [e];
    assert u1[1..] == u2 && u2[1..] == u3 && u3[1..] == u4 && u4[1..] == u5 && u5[1..] == [];
    assert FirstNear(q, u4) == if Near(q, d) then d else FirstNear(q, u5);
    assert FirstNear(q, u3) == if Near(q, c) then c else FirstNear(q, u4);
    assert FirstNear(q, u2) == if Near(q, b) then b else FirstNear(q, u3);
  }

  /**
   * `getClosestAspectRatio`: the first ratio, in union order, within 0.1 of
   * `width / height`; "1:1" otherwise. A zero height yields an infinite or
   * NaN quotient in the source, which no comparison accepts.
   */
  function GetClosestAspectRatio(width: int, height: int): (r: string)
    ensures r in AspectRatios
    ensures height == 0 ==> r == "1:1"
  {
    if height == 0 then "1:1" else ClosestToQuotient(width as real / height as real)
  }

  /** The chain of comparisons of `getClosestAspectRatio` on the quotient `q`. */
  function ClosestToQuotient(q: real): (r: string)
    ensures r in AspectRatios
  {
    if AbsReal(q - 1.0) < 0.1 then "1:1"
    else if AbsReal(q - 16.0 / 9.0) < 0.1 then "16:9"
    else if AbsReal(q - 9.0 / 16.0) < 0.1 then "9:16"
    else if AbsReal(q - 4.0 / 3.0) < 0.1 then "4:3"
    else if AbsReal(q - 3.0 / 4.0) < 0.1 then "3:4"
    else "1:1"
  }

  /** Each comparison of the chain is `Near` for the name it returns. */
  lemma NearUnfolds(q: real)
    ensures Near(q, "1:1") <==> AbsReal(q - 1.0) < 0.1
    ensures Near(q, "16:9") <==> AbsReal(q - 16.0 / 9.0) < 0.1
    ensures Near(q, "9:16") <==> AbsReal(q - 9.0 / 16.0) < 0.1
    ensures Near(q, "4:3") <==> AbsReal(q - 4.0 / 3.0) < 0.1
    ensures Near(q, "3:4") <==> AbsReal(q - 3.0 / 4.0) < 0.1
  {
    RatioValues();
  }

  /**
   * The chain of comparisons is the first-match scan over the union's
   * names, each compared with the quotient its own name spells.
   */
  lemma ClosestIsFirstNear(q: real)
    ensures ClosestToQuotient(q) == FirstNear(q, AspectRatios)
  {
    NearUnfolds(q);
    FirstNearOfFive(q, "1:1", "16:9", "9:16", "4:3", "3:4");
  }

  /** Mapping a ratio to pixels and back recovers it. */
  lemma ClosestRecoversMappedRatio(ratio: string)
    requires ratio in AspectRatios
    ensures var d := MapAspectRatioToBfl(ratio); GetClosestAspectRatio(d.width, d.height) == ratio
  {
    var d := MapAspectRatioToBfl(ratio);
    var q := d.width as real / d.height as real;
    if ratio == "16:9" {
      assert q == 16.0 / 9.0;
    } else if ratio == "9:16" {
      assert q == 9.0 / 16.0;
    } else if ratio == "4:3" {
      assert q == 4.0 / 3.0;
    } else if ratio == "3:4" {
      assert q == 3.0 / 4.0;
    }
  }

  // ---------------------------------------------------------------------
  // BFL submission
  // ---------------------------------------------------------------------

  const DefaultSteps := 20
  const DefaultGuidance := 3.5
  /** The provider's most permissive setting. */
  const SafetyTolerance := 6
  const OutputFormat := "jpeg"

  /**
   * The submitted JSON body. `None` in an optional field means the key was
   * deleted; `seed` is always present and `None` there is `null`.
   */
  datatype BflBody = BflBody(
    prompt: string,
    steps: Option<int>,
    guidance: Option<real>,
    width: Option<int>,
    height: Option<int>,
    promptUpsampling: Option<Value>,
    seed: Option<int>,
    safetyTolerance: int,
    outputFormat: string,
    aspectRatio: Option<string>)

  predicate IsUltra(model: string) {
    EndsWith(model, "-ultra")
  }

  predicate IsPro11(model: string) {
    EndsWith(model, "-pro-1.1")
  }

  /** A parameter left out of the call takes its default `false`; `null` stays. */
  function UpsamplingArgument(v: Value): Value {
    if v.Undefined? then Bool(false) else v
  }

  /**
   * The request body for `model`: the full body, then ultra models trade
   * the pixel fields and tuning knobs for an aspect-ratio name, and pro-1.1
   * models drop the tuning knobs.
   */
  function ShapeRequestBody(prompt: string, model: string, aspectRatio: string, promptUpsampling: Value, seed: Option<int>): (b: BflBody)
    ensures b.prompt == prompt && b.seed == seed
    ensures b.safetyTolerance == SafetyTolerance && b.outputFormat == OutputFormat
    ensures IsUltra(model) ==>
      && b.steps.None? && b.guidance.None? && b.width.None? && b.height.None?
      && b.promptUpsampling.None?
      && b.aspectRatio.Some? && b.aspectRatio.value in AspectRatios
    ensures !IsUltra(model) ==>
      && b.aspectRatio.None?
      && b.width == Some(MapAspectRatioToBfl(aspectRatio).width)
      && b.height == Some(MapAspectRatioToBfl(aspectRatio).height)
      && b.promptUpsampling == Some(UpsamplingArgument(promptUpsampling))
    ensures IsPro11(model) ==> b.steps.None? && b.guidance.None?
    ensures !IsUltra(model) && !IsPro11(model) ==> b.steps == Some(DefaultSteps) && b.guidance == Some(DefaultGuidance)
  {
    var d := MapAspectRatioToBfl(aspectRatio);
    var full := BflBody(prompt, Some(DefaultSteps), Some(DefaultGuidance), Some(d.width), Some(d.height),
                        Some(UpsamplingArgument(promptUpsampling)), seed, SafetyTolerance, OutputFormat, None);
    var afterUltra :=
      if IsUltra(model) then
        full.(aspectRatio := Some(GetClosestAspectRatio(d.width, d.height)),
              steps := None, guidance := None, width := None, height := None, promptUpsampling := None)
      else full;
    if IsPro11(model) then afterUltra.(steps := None, guidance := None) else afterUltra
  }

  /** An ultra body names the requested ratio when it is valid, and "1:1" otherwise. */
  lemma UltraBodyKeepsRequestedRatio(prompt: string, model: string, aspectRatio: string, promptUpsampling: Value, seed: Option<int>)
    requires IsUltra(model)
    ensures var b := ShapeRequestBody(prompt, model, aspectRatio, promptUpsampling, seed);
      b.aspectRatio == Some(if aspectRatio in AspectRatios then aspectRatio else "1:1")
  {
    if aspectRatio in AspectRatios {
      ClosestRecoversMappedRatio(aspectRatio);
    } else {
      assert GetClosestAspectRatio(1024, 1024) == "1:1";
    }
  }

  /** Which tier each of the four model names falls in. */
  lemma ModelTiers()
    ensures IsUltra("flux-pro-1.1-ultra") && !IsPro11("flux-pro-1.1-ultra")
    ensures !IsUltra("flux-pro-1.1") && IsPro11("flux-pro-1.1")
    ensures !IsUltra("flux-pro") && !IsPro11("flux-pro")
    ensures !IsUltra("flux-dev") && !IsPro11("flux-dev")
  {
    assert "flux-pro-1.1-ultra"[12..] == "-ultra";
    assert "flux-pro-1.1"[4..] == "-pro-1.1";
    assert "flux-pro-1.1-ultra"[10..] != "-pro-1.1" by { assert "flux-pro-1.1-ultra"[10] != '-'; }
    assert "flux-pro-1.1"[6..] != "-ultra" by { assert "flux-pro-1.1"[6] != '-'; }
    assert "flux-pro"[2..] != "-ultra" by { assert "flux-pro"[2] != '-'; }
    assert "flux-dev"[2..] != "-ultra" by { assert "flux-dev"[2] != '-'; }
  }

  /** The JSON a successful submission returned: its task id, when there is one. */
  datatype SubmitJson = SubmitJson(id: Option<string>)

  /** What one submission attempt's `fetch` produced. */
  datatype SubmitReply =
    | SubmitNetworkFailure(reason: string)
    | SubmitResponse(status: nat, statusText: string, text: string, json: Result<SubmitJson, string>)

  /** Why one attempt failed. */
  datatype AttemptError =
      /** No reply within the 30-second abort signal. */
    | AttemptTimedOut
    | AttemptTransport(reason: string)
    | AttemptHttp(status: nat, statusText: string, text: string)
    | AttemptBadJson(reason: string)
    | AttemptMissingId

  function AttemptMessage(e: AttemptError): string {
    match e
    case AttemptTimedOut => "signal timed out"
    case AttemptTransport(reason) => reason
    case AttemptHttp(status, statusText, text) =>
      "BFL API Error: " + NatToString(status) + " " + statusText + " - " + text
    case AttemptBadJson(reason) => reason
    case AttemptMissingId => "BFL API response missing task ID"
  }

  /** The outcome of one attempt; a missing reply is the timeout firing. */
  function AttemptOutcome(reply: Option<SubmitReply>): (r: Result<string, AttemptError>)
    ensures r.Ok? ==> r.value != ""
    ensures r.Ok? <==>
      && reply.Some? && reply.value.SubmitResponse? && HttpOk(reply.value.status)
      && reply.value.json.Ok? && TruthyText(reply.value.json.value.id)
    ensures r.Ok? ==> r.value == reply.value.json.value.id.value
    ensures reply.None? ==> r == Err(AttemptTimedOut)
    ensures reply.Some? && reply.value.SubmitNetworkFailure? ==> r == Err(AttemptTransport(reply.value.reason))
    ensures reply.Some? && reply.value.SubmitResponse? && !HttpOk(reply.value.status) ==>
      r == Err(AttemptHttp(reply.value.status, reply.value.statusText, reply.value.text))
    ensures reply.Some? && reply.value.SubmitResponse? && HttpOk(reply.value.status) && reply.value.json.Err? ==>
      r == Err(AttemptBadJson(reply.value.json.error))
    ensures (&& reply.Some? && reply.value.SubmitResponse? && HttpOk(reply.value.status)
             && reply.value.json.Ok? && !TruthyText(reply.value.json.value.id)) ==> r == Err(AttemptMissingId)
  {
    match reply
    case None => Err(AttemptTimedOut)
    case Some(SubmitNetworkFailure(reason)) => Err(AttemptTransport(reason))
    case Some(SubmitResponse(status, statusText, text, json)) =>
      if !HttpOk(status) then Err(AttemptHttp(status, statusText, text))
      else match json
        case Err(reason) => Err(AttemptBadJson(reason))
        case Ok(SubmitJson(id)) =>
          if id.None? || id.value == "" then Err(AttemptMissingId) else Ok(id.value)
  }

  const MaxSubmitAttempts := 3
  const RetryDelayStep := 2000

  /** The reply attempt `k` (from 1) received, if any. */
  function ReplyAt(replies: seq<SubmitReply>, k: nat): Option<SubmitReply>
    requires k >= 1
  {
    if k - 1 < |replies| then Some(replies[k - 1]) else None
  }

  /** The attempts made, the waits between them, and the final outcome. */
  datatype RetryTrace = RetryTrace(result: Result<string, AttemptError>, attempts: nat, delays: seq<nat>)

  /**
   * Attempts `attempt` .. 3: stops at the first success, waits
   * `attempt * 2000` ms after each failure but the last, and reports the
   * last failure when all fail.
   */
  function RetryFrom(attempt: nat, replies: seq<SubmitReply>): (t: RetryTrace)
    requires 1 <= attempt <= MaxSubmitAttempts
    ensures attempt <= t.attempts <= MaxSubmitAttempts
    ensures t.result == AttemptOutcome(ReplyAt(replies, t.attempts))
    ensures forall k :: attempt <= k < t.attempts ==> AttemptOutcome(ReplyAt(replies, k)).Err?
    ensures t.result.Err? ==> t.attempts == MaxSubmitAttempts
    ensures |t.delays| == t.attempts - attempt
    ensures forall i :: 0 <= i < |t.delays| ==> t.delays[i] == (attempt + i) * RetryDelayStep
    decreases MaxSubmitAttempts - attempt
  {
    var outcome := AttemptOutcome(ReplyAt(replies, attempt));
    if outcome.Ok? || attempt == MaxSubmitAttempts then RetryTrace(outcome, attempt, [])
    else
      var rest := RetryFrom(attempt + 1, replies);
      RetryTrace(rest.result, rest.attempts, [attempt * RetryDelayStep] + rest.delays)
  }

  /** Why a submission failed. */
  datatype SubmitError =
    | MissingApiKey
      /** `model.endsWith` called on something that is not a string. */
    | ModelNotText(model: Value)
    | AllAttemptsFailed(last: AttemptError)

  /**
   * The message of the error thrown: reading a member of `null` or
   * `undefined` is a property-read failure, calling it on any other
   * non-string is a "not a function" failure.
   */
  function SubmitMessage(e: SubmitError): string {
    match e
    case MissingApiKey => "BFL API Key is not configured."
    case ModelNotText(Undefined) => "Cannot read properties of undefined (reading 'endsWith')"
    case ModelNotText(Null) => "Cannot read properties of null (reading 'endsWith')"
    case ModelNotText(_) => "model.endsWith is not a function"
    case AllAttemptsFailed(last) => AttemptMessage(last)
  }

  /** What a submission did: the body it sent, how often, with what waits, and the task id. */
  datatype SubmitTrace = SubmitTrace(result: Result<string, SubmitError>, body: Option<BflBody>, attempts: nat, delays: seq<nat>)

  /**
   * `initiateImageGenerationBFL`. `replies[k]` is what attempt `k + 1` got
   * back; attempts beyond `|replies|` time out.
   */
  function InitiateImageGenerationBfl(
    apiKey: string, prompt: string, model: Value, aspectRatio: string,
    promptUpsampling: Value, seed: Option<int>, replies: seq<SubmitReply>): (t: SubmitTrace)
    ensures apiKey == "" ==> t == SubmitTrace(Err(MissingApiKey), None, 0, [])
    ensures apiKey != "" && !model.Str? ==> t == SubmitTrace(Err(ModelNotText(model)), None, 0, [])
    ensures t.attempts <= MaxSubmitAttempts
    ensures t.attempts > 0 <==> apiKey != "" && model.Str?
    ensures t.attempts > 0 ==> t.body == Some(ShapeRequestBody(prompt, model.s, aspectRatio, promptUpsampling, seed))
    ensures t.result.Ok? ==> t.result.value != "" && t.attempts > 0
    ensures t.result.Ok? ==> AttemptOutcome(ReplyAt(replies, t.attempts)) == Ok(t.result.value)
    ensures forall k :: 1 <= k < t.attempts ==> AttemptOutcome(ReplyAt(replies, k)).Err?
    ensures t.result.Err? && t.attempts > 0 ==>
      && t.attempts == MaxSubmitAttempts
      && AttemptOutcome(ReplyAt(replies, MaxSubmitAttempts)).Err?
      && t.result.error == AllAttemptsFailed(AttemptOutcome(ReplyAt(replies, MaxSubmitAttempts)).error)
    ensures |t.delays| == (if t.attempts == 0 then 0 else t.attempts - 1)
    ensures forall i :: 0 <= i < |t.delays| ==> t.delays[i] == (i + 1) * RetryDelayStep
  {
    if apiKey == "" then SubmitTrace(Err(MissingApiKey), None, 0, [])
    else if !model.Str? then SubmitTrace(Err(ModelNotText(model)), None, 0, [])
    else
      var body := ShapeRequestBody(prompt, model.s, aspectRatio, promptUpsampling, seed);
      var run := RetryFrom(1, replies);
      var result := match run.result
        case Ok(id) => Ok(id)
        case Err(e) => Err(AllAttemptsFailed(e));
      SubmitTrace(result, Some(body), run.attempts, run.delays)
  }

  /** With a key and a string model, the submission succeeds exactly when one of the three attempts does. */
  lemma SubmitSucceedsIffSomeAttemptDoes(
    apiKey: string, prompt: string, model: Value, aspectRatio: string,
    promptUpsampling: Value, seed: Option<int>, replies: seq<SubmitReply>)
    requires apiKey != "" && model.Str?
    ensures InitiateImageGenerationBfl(apiKey, prompt, model, aspectRatio, promptUpsampling, seed, replies).result.Ok?
      <==> exists k :: 1 <= k <= MaxSubmitAttempts && AttemptOutcome(ReplyAt(replies, k)).Ok?
  {
    var t := InitiateImageGenerationBfl(apiKey, prompt, model, aspectRatio, promptUpsampling, seed, replies);
    if t.result.Err? {
      forall k | 1 <= k <= MaxSubmitAttempts
        ensures AttemptOutcome(ReplyAt(replies, k)).Err?
      {
        if k == MaxSubmitAttempts {
          assert t.result.error == AllAttemptsFailed(AttemptOutcome(ReplyAt(replies, MaxSubmitAttempts)).error);
        }
      }
    }
  }

  /** The total wait before the last attempt never exceeds 2 s + 4 s. */
  lemma SubmitWaitsAtMostSixSeconds(
    apiKey: string, prompt: string, model: Value, aspectRatio: string,
    promptUpsampling: Value, seed: Option<int>, replies: seq<SubmitReply>)
    ensures var t := InitiateImageGenerationBfl(apiKey, prompt, model, aspectRatio, promptUpsampling, seed, replies);
      |t.delays| <= 2 && (forall i :: 0 <= i < |t.delays| ==> t.delays[i] <= 4000)
  {
  }

  // ---------------------------------------------------------------------
  // BFL polling
  // ---------------------------------------------------------------------

  /** The JSON of a poll reply: the status and `result?.sample`. */
  datatype PollJson = PollJson(status: string, sample: Option<string>)

  datatype PollReply =
    | PollNetworkFailure(reason: string)
    | PollResponse(status: nat, statusText: string, text: string, json: Result<PollJson, string>)

  /** What fetching the sample and reading it as a data URL produced. */
  datatype Download =
    | DownloadNetworkFailure(reason: string)
    | DownloadResponse(status: nat, statusText: string, read: Result<string, string>)

  /** A poll's result: the task status and its sample, now inline when ready. */
  datatype PollResult = PollResult(status: string, sample: Option<string>)

  datatype PollError =
    | MissingTaskId
    | PollTransport(reason: string)
    | PollHttp(status: nat, statusText: string, text: string)
    | PollBadJson(reason: string)
    | ImageProcessing(reason: string)

  function PollMessage(e: PollError): string {
    match e
    case MissingTaskId => "Task ID is missing."
    case PollTransport(reason) => reason
    case PollHttp(status, statusText, text) =>
      "BFL Polling Error: " + NatToString(status) + " " + statusText + " - " + text
    case PollBadJson(reason) => reason
    case ImageProcessing(reason) => "Failed to process generated image: " + reason
  }

  /** The sample as a data URL, or why the download failed. */
  function DownloadOutcome(d: Download): (r: Result<string, string>)
    ensures r.Ok? <==> d.DownloadResponse? && HttpOk(d.status) && d.read.Ok?
    ensures r.Ok? ==> r.value == d.read.value
    ensures d.DownloadNetworkFailure? ==> r == Err(d.reason)
    ensures d.DownloadResponse? && !HttpOk(d.status) ==>
      r == Err("Image download failed: " + NatToString(d.status) + " " + d.statusText)
    ensures d.DownloadResponse? && HttpOk(d.status) && d.read.Err? ==> r == d.read
  {
    match d
    case DownloadNetworkFailure(reason) => Err(reason)
    case DownloadResponse(status, statusText, read) =>
      if !HttpOk(status) then Err("Image download failed: " + NatToString(status) + " " + statusText)
      else read
  }

  /** A ready task with a non-empty sample: the one case that downloads. */
  predicate ReadyWithSample(j: PollJson) {
    j.status == "Ready" && TruthyText(j.sample)
  }

  /**
   * `pollImageBFL`: a ready result's sample is replaced by its downloaded
   * data URL; any other status passes through unchanged.
   */
  function PollImageBfl(taskId: string, reply: PollReply, download: Download): (r: Result<PollResult, PollError>)
    ensures taskId == "" ==> r == Err(MissingTaskId)
    ensures r.Ok? ==> taskId != "" && reply.PollResponse? && HttpOk(reply.status) && reply.json.Ok?
    ensures r.Ok? ==> r.value.status == reply.json.value.status
    ensures r.Ok? && !ReadyWithSample(reply.json.value) ==> r.value.sample == reply.json.value.sample
    ensures r.Ok? && ReadyWithSample(reply.json.value) ==>
      DownloadOutcome(download).Ok? && r.value.sample == Some(DownloadOutcome(download).value)
    ensures r.Err? && r.error.ImageProcessing? ==>
      reply.PollResponse? && reply.json.Ok? && ReadyWithSample(reply.json.value) && DownloadOutcome(download).Err?
    ensures (&& taskId != "" && reply.PollResponse? && HttpOk(reply.status) && reply.json.Ok?
             && !ReadyWithSample(reply.json.value)) ==>
      r == Ok(PollResult(reply.json.value.status, reply.json.value.sample))
    ensures taskId != "" && reply.PollNetworkFailure? ==> r == Err(PollTransport(reply.reason))
    ensures taskId != "" && reply.PollResponse? && !HttpOk(reply.status) ==>
      r == Err(PollHttp(reply.status, reply.statusText, reply.text))
    ensures taskId != "" && reply.PollResponse? && HttpOk(reply.status) && reply.json.Err? ==>
      r == Err(PollBadJson(reply.json.error))
    ensures (&& taskId != "" && reply.PollResponse? && HttpOk(reply.status) && reply.json.Ok?
             && ReadyWithSample(reply.json.value) && DownloadOutcome(download).Err?) ==>
      r == Err(ImageProcessing(DownloadOutcome(download).error))
  {
    if taskId == "" then Err(MissingTaskId)
    else match reply
      case PollNetworkFailure(reason) => Err(PollTransport(reason))
      case PollResponse(status, statusText, text, json) =>
        if !HttpOk(status) then Err(PollHttp(status, statusText, text))
        else match json
          case Err(reason) => Err(PollBadJson(reason))
          case Ok(j) =>
            if ReadyWithSample(j) then
              match DownloadOutcome(download)
              case Ok(dataUrl) => Ok(PollResult("Ready", Some(dataUrl)))
              case Err(reason) => Err(ImageProcessing(reason))
            else Ok(PollResult(j.status, j.sample))
  }

  /** The sample is downloaded only for a ready task with a sample: otherwise the download is irrelevant. */
  lemma PollDownloadsOnlyWhenReady(taskId: string, reply: PollReply, d1: Download, d2: Download)
    requires !(reply.PollResponse? && reply.json.Ok? && ReadyWithSample(reply.json.value))
    ensures PollImageBfl(taskId, reply, d1) == PollImageBfl(taskId, reply, d2)
  {
  }

  /** A successful poll of a ready task with a sample carries the downloaded data, not the remote link. */
  lemma PollReadyInlinesData(taskId: string, reply: PollReply, d: Download)
    requires taskId != "" && reply.PollResponse? && HttpOk(reply.status) && reply.json.Ok?
    requires ReadyWithSample(reply.json.value)
    ensures PollImageBfl(taskId, reply, d).Ok? <==> DownloadOutcome(d).Ok?
    ensures DownloadOutcome(d).Ok? ==> PollImageBfl(taskId, reply, d) == Ok(PollResult("Ready", Some(DownloadOutcome(d).value)))
  {
  }
}

=== FILE: types.dfy ===
/**
 * The application's records: character content with its edit/generation
 * timestamps, UI and asynchronous image-generation state, notifications and
 * the user settings, together with the JSON view of settings that is stored,
 * exported and written into project files.
 */
module Types {
  import opened Wrappers
  import opened Js

  /** One editable text of the pipeline, stamped with abstract clock values. */
  datatype Content = Content(value: string, lastModified: int, lastGenerated: int)

  /** The four text fields of a character, in pipeline order. */
  datatype ContentKey = Idea | Profile | Card | ImagePrompt {

    /** The field's property name in `CharacterData`. */
    function Name(): string {
      match this
      case Idea => "idea"
      case Profile => "profile"
      case Card => "card"
      case ImagePrompt => "imagePrompt"
    }
  }

  datatype CharacterData = CharacterData(
    idea: Content,
    profile: Content,
    card: Content,
    imagePrompt: Content,
    generatedImageUrl: Option<string>,
    generatedImageData: Option<string>)
  {
    function Get(k: ContentKey): Content {
      match k
      case Idea => idea
      case Profile => profile
      case Card => card
      case ImagePrompt => imagePrompt
    }

    /** `{ ...this, [k]: c }`. */
    function With(k: ContentKey, c: Content): (r: CharacterData)
      ensures r.Get(k) == c
      ensures forall k' :: k' != k ==> r.Get(k') == Get(k')
      ensures r.generatedImageUrl == generatedImageUrl
      ensures r.generatedImageData == generatedImageData
    {
      match k
      case Idea => this.(idea := c)
      case Profile => this.(profile := c)
      case Card => this.(card := c)
      case ImagePrompt => this.(imagePrompt := c)
    }
  }

  /** The keys of `UiState.isGenerating`. */
  datatype GenFlag = ProfileFlag | CardFlag | PromptFlag | ImageFlag

  datatype GenFlags = GenFlags(profile: bool, card: bool, prompt: bool, image: bool) {
    function Get(f: GenFlag): bool {
      match f
      case ProfileFlag => profile
      case CardFlag => card
      case PromptFlag => prompt
      case ImageFlag => image
    }

    /** `{ ...this, [f]: b }`. */
    function With(f: GenFlag, b: bool): (r: GenFlags)
      ensures r.Get(f) == b
      ensures forall f' :: f' != f ==> r.Get(f') == Get(f')
    {
      match f
      case ProfileFlag => this.(profile := b)
      case CardFlag => this.(card := b)
      case PromptFlag => this.(prompt := b)
      case ImageFlag => this.(image := b)
    }
  }

  datatype NoteKind = SuccessNote | ErrorNote | InfoNote | WarningNote

  /** A toast; its id is the clock value at which it was raised. */
  datatype Notification = Notification(id: int, kind: NoteKind, message: string)

  datatype UiState = UiState(isGenerating: GenFlags, notifications: seq<Notification>, isSettingsOpen: bool)

  /** `'error'` and `'success'` belong to the declared union but no transition produces them. */
  datatype AsyncStatus = Idle | Generating | Polling | Errored | Succeeded

  /** The image-generation lifecycle; `pollingUrl` holds the provider's task id. */
  datatype AsyncState = AsyncState(status: AsyncStatus, pollingUrl: Option<string>, pollingAttempts: nat)

  /** The `AspectRatio` union. */
  const AspectRatios: seq<string> := ["1:1", "16:9", "9:16", "4:3", "3:4"]

  /** The `ApiProvider` union. */
  const ApiProviders: seq<string> := ["google", "third-party"]

  /** The `BFLModel` union. */
  const BflModelNames: seq<string> := ["flux-pro-1.1-ultra", "flux-pro-1.1", "flux-pro", "flux-dev"]

  /**
   * `settings.bflSettings`: `NoBfl` is a null (falsy) value; an object's
   * fields are loosely typed because the validator checks their types.
   */
  datatype BflField = NoBfl | Bfl(model: Value, promptUpsampling: Value, safetyTolerance: Value)

  datatype Settings = Settings(
    llmApiProvider: string,
    llmModel: string,
    llmApiUrl: string,
    llmApiKey: string,
    imageApiProvider: string,
    imageModel: string,
    imageApiUrl: string,
    imageApiKey: string,
    imageAspectRatio: string,
    profilePrompt: string,
    cardPrompt: string,
    promptPrompt: string,
    bflSettings: BflField)

  /**
   * A settings object as parsed back from JSON: every key may be absent
   * (`None`); `bflSettings` may also be present and null (`Some(NoBfl)`).
   */
  datatype SettingsPatch = SettingsPatch(
    llmApiProvider: Option<string>,
    llmModel: Option<string>,
    llmApiUrl: Option<string>,
    llmApiKey: Option<string>,
    imageApiProvider: Option<string>,
    imageModel: Option<string>,
    imageApiUrl: Option<string>,
    imageApiKey: Option<string>,
    imageAspectRatio: Option<string>,
    profilePrompt: Option<string>,
    cardPrompt: Option<string>,
    promptPrompt: Option<string>,
    bflSettings: Option<BflField>)

  /** The thirteen keys of `Settings`. */
  datatype SettingsKey =
    | LlmApiProvider | LlmModel | LlmApiUrl | LlmApiKey
    | ImageApiProvider | ImageModel | ImageApiUrl | ImageApiKey
    | ImageAspectRatio | ProfilePrompt | CardPrompt | PromptPrompt
    | BflSettings

  /** `key in patch`. */
  predicate HasKey(p: SettingsPatch, k: SettingsKey) {
    match k
    case LlmApiProvider => p.llmApiProvider.Some?
    case LlmModel => p.llmModel.Some?
    case LlmApiUrl => p.llmApiUrl.Some?
    case LlmApiKey => p.llmApiKey.Some?
    case ImageApiProvider => p.imageApiProvider.Some?
    case ImageModel => p.imageModel.Some?
    case ImageApiUrl => p.imageApiUrl.Some?
    case ImageApiKey => p.imageApiKey.Some?
    case ImageAspectRatio => p.imageAspectRatio.Some?
    case ProfilePrompt => p.profilePrompt.Some?
    case CardPrompt => p.cardPrompt.Some?
    case PromptPrompt => p.promptPrompt.Some?
    case BflSettings => p.bflSettings.Some?
  }

  /** The twelve keys whose values are strings. */
  type TextKey = k: SettingsKey | !k.BflSettings? witness LlmApiProvider

  /** `s[k]` for a string-valued key. */
  function TextAt(s: Settings, k: TextKey): string {
    match k
    case LlmApiProvider => s.llmApiProvider
    case LlmModel => s.llmModel
    case LlmApiUrl => s.llmApiUrl
    case LlmApiKey => s.llmApiKey
    case ImageApiProvider => s.imageApiProvider
    case ImageModel => s.imageModel
    case ImageApiUrl => s.imageApiUrl
    case ImageApiKey => s.imageApiKey
    case ImageAspectRatio => s.imageAspectRatio
    case ProfilePrompt => s.profilePrompt
    case CardPrompt => s.cardPrompt
    case PromptPrompt => s.promptPrompt
  }

  /** `p[k]` for a string-valued key, `None` when the key is absent. */
  function PatchTextAt(p: SettingsPatch, k: TextKey): Option<string> {
    match k
    case LlmApiProvider => p.llmApiProvider
    case LlmModel => p.llmModel
    case LlmApiUrl => p.llmApiUrl
    case LlmApiKey => p.llmApiKey
    case ImageApiProvider => p.imageApiProvider
    case ImageModel => p.imageModel
    case ImageApiUrl => p.imageApiUrl
    case ImageApiKey => p.imageApiKey
    case ImageAspectRatio => p.imageAspectRatio
    case ProfilePrompt => p.profilePrompt
    case CardPrompt => p.cardPrompt
    case PromptPrompt => p.promptPrompt
  }

  /** Every one of the thirteen keys is present. */
  predicate HasAllKeys(p: SettingsPatch) {
    && p.llmApiProvider.Some? && p.llmModel.Some? && p.llmApiUrl.Some? && p.llmApiKey.Some?
    && p.imageApiProvider.Some? && p.imageModel.Some? && p.imageApiUrl.Some? && p.imageApiKey.Some?
    && p.imageAspectRatio.Some? && p.profilePrompt.Some? && p.cardPrompt.Some? && p.promptPrompt.Some?
    && p.bflSettings.Some?
  }

  /** The JSON object `JSON.parse(JSON.stringify(s))` yields: every key present. */
  function AsPatch(s: Settings): (p: SettingsPatch)
    ensures HasAllKeys(p)
  {
    SettingsPatch(
      Some(s.llmApiProvider), Some(s.llmModel), Some(s.llmApiUrl), Some(s.llmApiKey),
      Some(s.imageApiProvider), Some(s.imageModel), Some(s.imageApiUrl), Some(s.imageApiKey),
      Some(s.imageAspectRatio), Some(s.profilePrompt), Some(s.cardPrompt), Some(s.promptPrompt),
      Some(s.bflSettings))
  }

  /** Reads a parsed object that has every key as a `Settings` value, unchanged. */
  function FromPatch(p: SettingsPatch): (s: Settings)
    requires HasAllKeys(p)
    ensures AsPatch(s) == p
  {
    Settings(
      p.llmApiProvider.value, p.llmModel.value, p.llmApiUrl.value, p.llmApiKey.value,
      p.imageApiProvider.value, p.imageModel.value, p.imageApiUrl.value, p.imageApiKey.value,
      p.imageAspectRatio.value, p.profilePrompt.value, p.cardPrompt.value, p.promptPrompt.value,
      p.bflSettings.value)
  }

  /** A project file: the character and the settings. */
  datatype ProjectFile = ProjectFile(characterData: CharacterData, settings: Settings)

  /** A parsed project file whose two members may be missing (or falsy). */
  datatype ProjectDoc = ProjectDoc(characterData: Option<CharacterData>, settings: Option<SettingsPatch>)

  /** What `JSON.parse(JSON.stringify(file))` yields for a saved project. */
  function AsDoc(f: ProjectFile): ProjectDoc {
    ProjectDoc(Some(f.characterData), Some(AsPatch(f.settings)))
  }

  /** `x` for a `string | null` value: present and non-empty. */
  predicate TruthyText(o: Option<string>) {
    o.Some? && o.value != ""
  }
}

=== FILE: wrappers.dfy ===
/** Failure-carrying datatypes shared by every module of the model. */
module Wrappers {

  /** A value that may be missing: JavaScript's `null`/absent in typed positions. */
  datatype Option<+T> = None | Some(value: T) {

    /** The value if present, otherwise `default` (JavaScript's `x ?? default`). */
    function GetOr(default: T): T {
      match this
      case Some(v) => v
      case None => default
    }
  }

  /** The outcome of an operation that either returns a value or throws. */
  datatype Result<+T, +E> = Ok(value: T) | Err(error: E)
}
